=== FILE: README.md ===
# Satonic client: a Dafny model of its decision rules

Satonic is a marketplace for Bitcoin Ordinals. The Next.js client signs
users in with the Unisat wallet extension, talks to a REST backend and
follows live auctions over a WebSocket. The auctions themselves, bidding,
escrow and signature checks all run in the backend. What the client adds is
a set of small, sequential rules in its glue code, and this project models
those rules and proves their properties:

- **Client session and token.** `lib/api.ts` keeps the bearer token in
  storage and resets the auth state. `lib/auth.ts` keeps an expiring
  session under three storage keys. Storage is a `map<string, string>`.
  Time is integer milliseconds. Date parsing is a function the caller
  supplies.
- **`apiRequest`.** A total function from the fetch outcome to the
  `ApiResponse` it returns, plus its effect on storage. It covers 204 (section
  15.3.5 of RFC 9110), 401 (section 15.5.2 of RFC 9110) and the
  `invalid_token` challenge (section 3.1 of RFC 6750). It also covers the
  bearer `Authorization` header (section 2.1 of RFC 6750) and the backend's
  `{success, data, error}` envelope.
- **Query and login.** The auction listing's query string follows the
  `application/x-www-form-urlencoded` serializer of the URL Standard. The
  wallet login adds its own argument and token checks.
- **Three state machines:**
  - the WebSocket service's reconnect backoff, with the close-code rule of
    section 7.4.1 of RFC 6455;
  - the wallet sign-in's lock and two-second cooldown;
  - the home page's retry-twice-then-fallback loop.
- **Auction rules.** Validation and derivation when creating an auction,
  the list and card display rules, and the `useWallet` state transitions.

JavaScript semantics are modelled where the rules depend on them:
truthiness, `String.prototype.trim` (the whitespace set of section 22.1.3.32
of ECMA-262), `includes`, `JSON.stringify` (section 25.5.2 of ECMA-262),
`slice` with a negative end, and the TypeError texts V8 gives.

Modules, one per file:

- `JsText`, `JsNumber` and `JsValue` hold that JavaScript layer.
- `Storage` is `localStorage`.
- `ApiClient` is `lib/api.ts` and `AuthSession` is `lib/auth.ts`.
- `WebSocketService` is `services/websocket.ts` and `UnisatService` is
  `services/unisat.ts`.
- `HomePage` is `app/page.tsx`.
- `CreateAuctionCard`, `AuctionList` and `AuctionCard` are the three
  auction components.
- `UseWallet` is `hooks/useWallet.ts`.

## Model

| member | source | states |
|---|---|---|
| JsText.Trim | satonic-app/src/lib/api.ts:28-32 | the result is empty iff the input is all whitespace; otherwise it begins and ends with non-whitespace and is the input minus its leading and trailing whitespace |
| JsText.LowerChar | satonic-app/src/lib/api.ts:104-106 | A-Z become a-z and the Kelvin sign becomes `k`; a lower-case ASCII letter in the result comes only from an ASCII letter or the Kelvin sign |
| JsText.TrimIdempotent | satonic-app/src/lib/api.ts:305-308 | trimming an already trimmed token changes nothing, so the second `trim` before the bearer header is harmless |
| JsText.SplitJoin | satonic-app/src/lib/api.ts:473-485 | splitting a joined list on its separator gives back the list when no element contains the separator (the basis of reading a query string back) |
| JsNumber.NatToStringRoundTrip | satonic-app/src/components/auction/AuctionCard.tsx:19 | reading back the decimal text of a number gives the number |
| ApiClient.GetAuthToken | satonic-app/src/lib/api.ts:22-38 | no token iff the key is missing, empty or whitespace only; otherwise the trimmed stored value, with non-whitespace at both ends |
| ApiClient.SetAuthToken | satonic-app/src/lib/api.ts:40-53 | an empty argument leaves storage unchanged; otherwise the trimmed argument is stored under the token key and no other key changes |
| ApiClient.SetThenGetAuthToken | satonic-app/src/lib/api.ts:22-53 | after storing a non-empty `t`, reading gives `t.trim()`, or nothing when `t` is whitespace only |
| ApiClient.RemoveAuthToken | satonic-app/src/lib/api.ts:55-63 | the token key is gone, every other key is untouched, and the client is no longer authenticated |
| ApiClient.AuthStateCleared | satonic-app/src/lib/api.ts:94-123 | a key survives iff it was present, is not the token key, and its name lower-cased as `toLowerCase` does (Kelvin sign included) contains none of "auth", "token", "user"; surviving values are unchanged |
| ApiClient.AuthStateClearedLogsOut | satonic-app/src/lib/api.ts:94-127 | after a reset the client is unauthenticated, "user" is gone, and a second reset changes nothing |
| ApiClient.KelvinSignKeyCleared | satonic-app/src/lib/api.ts:104-106 | a key spelled "TO\u212AEN" is cleared, because the Kelvin sign lower-cases to `k` |
| ApiClient.ResetAuthState | satonic-app/src/lib/api.ts:94-123 | removing the token and then every auth-related key found in a walk over the keys, in any walk order, leaves exactly `AuthStateCleared` |
| ApiClient.RequestHeaders | satonic-app/src/lib/api.ts:296-320 | the header names are Content-Type, the caller's, and Authorization iff a token exists; caller headers win; the default Authorization is "Bearer " followed by the trimmed token |
| ApiClient.DecodeBody | satonic-app/src/lib/api.ts:389-416 | an envelope gives success iff `success` and `data` are both truthy, carrying `data`; otherwise it gives failure with `error` or "Unknown API error" and the status; a non-envelope gives success iff the status is 2xx, carrying the body |
| ApiClient.ApiRequest | satonic-app/src/lib/api.ts:291-424 | a rejected fetch fails with its message; 204 always succeeds; 401 always fails with the fixed message and removes the token exactly when `x-auth-failed` is "true" or the challenge contains `invalid_token`; storage is unchanged otherwise; a 205 or 304 answer has a null body and fails with the empty parse text "Failed to parse response: "; for any other status, a body that is not JSON, does not parse, or is `null` fails with "Could not read response text" as the parse text |
| ApiClient.SuccessEnvelopeRoundTrip | satonic-app/src/lib/api.ts:389-397 | a backend success envelope comes out as the data it carries when that data is truthy, for any status but 204, 401, 205 and 304 |
| ApiClient.NullBodyDropsEnvelope | satonic-app/src/lib/api.ts:359-380 | a 205 or 304 answer fails with the empty parse text even when the server sent a success envelope, because the body is null |
| ApiClient.ErrorEnvelopeRoundTrip | satonic-app/src/lib/api.ts:398-405 | a backend error envelope comes out as a failure with its message, or the generic one when that message is empty, together with the status, for any status but 204, 401, 205 and 304 |
| ApiClient.DefinedParams | satonic-app/src/lib/api.ts:472-478 | the appended parameters are those whose value is defined, each once, in the order `Object.entries` lists them: exactly the parameters at the positions `DefinedIndices` gives |
| ApiClient.DefinedIndices | satonic-app/src/lib/api.ts:472-478 | strictly increasing positions of defined parameters, covering every defined one |
| ApiClient.FormEncode | satonic-app/src/lib/api.ts:471-485 | the serialized text uses only form-safe characters, so it never contains a raw `&` or `=` |
| ApiClient.FormDecodeEncode | satonic-app/src/lib/api.ts:471-485 | the form decoding of the URL Standard gives back any serialized text exactly, non-ASCII characters included, so the serialization loses nothing |
| ApiClient.FormEncodeInjective | satonic-app/src/lib/api.ts:471-485 | two texts with the same serialization are equal |
| ApiClient.AuctionsPath | satonic-app/src/lib/api.ts:464-486 | the requested path always starts with "/auctions" |
| ApiClient.PathWithLists | satonic-app/src/lib/api.ts:480-485 | "?" is added iff some parameter is defined, and the text after it splits on "&" into one encoded pair per defined parameter, in order |
| ApiClient.AuctionsPathLists | satonic-app/src/lib/api.ts:464-486 | the path is "/auctions" iff no parameter is defined; otherwise "?" follows, and splitting on "&" and then "=" gives back each defined parameter's encoded key and value, in order |
| ApiClient.WalletLogin | satonic-app/src/lib/api.ts:555-607 | no request is sent iff the address, signature or message is empty; a success that carries truthy data always has a non-empty string token; truthy data without a token becomes the "invalid token data" failure |
| AuthSession.SetAuth | satonic-app/src/lib/auth.ts:23-33 | the token, the user's JSON and the expiry are stored under their three keys and nothing else changes |
| AuthSession.ClearAuth | satonic-app/src/lib/auth.ts:38-52 | exactly the token, "user" and "expires_at" keys are removed |
| AuthSession.IsAuthenticated | satonic-app/src/lib/auth.ts:57-79 | the session is valid iff the token and the expiry are present and non-empty and the expiry has not passed; an expired session is cleared and a valid one leaves storage unchanged |
| AuthSession.GetCurrentUser | satonic-app/src/lib/auth.ts:84-100 | nothing while the session is not valid; otherwise the stored user JSON, if present; storage is affected only by the validity check |
| AuthSession.GetAuthToken | satonic-app/src/lib/auth.ts:105-116 | the stored token, untrimmed, iff the session is valid |
| AuthSession.UpdateCurrentUser | satonic-app/src/lib/auth.ts:121-130 | only the "user" key changes |
| AuthSession.SetAuthThenValid | satonic-app/src/lib/auth.ts:23-116 | after `setAuth`, the session is valid while the clock has not passed the expiry, and it reads back the stored token and user |
| AuthSession.SetAuthThenExpired | satonic-app/src/lib/auth.ts:57-79 | once the expiry has passed, the session reads as absent and all three keys are gone |
| AuthSession.ValidityIsMonotone | satonic-app/src/lib/auth.ts:66-72 | a session valid at some instant was valid at every earlier instant |
| AuthSession.ExpiredSessionInvisibleToClient | satonic-app/src/lib/auth.ts:67-71 | after an expired session is cleared, the REST client sees no token either |
| WebSocketService.ReconnectDelay | satonic-app/src/services/websocket.ts:182 | the delay lies between 1000 and 30000 ms |
| WebSocketService.ReconnectDelayMonotone | satonic-app/src/services/websocket.ts:182 | later attempts never wait less |
| WebSocketService.ReconnectDelays | satonic-app/src/services/websocket.ts:180-182 | attempts 1 to 5 wait 2, 4, 8 and 16 seconds, then 30 |
| WebSocketService.AttemptReconnect | satonic-app/src/services/websocket.ts:179-194 | below the limit the counter goes up by exactly one and a new timer is pending and tracked, with that attempt's delay; the previous timer is not cleared; at the limit nothing is scheduled, the state is unchanged and `reconnect_failed` is emitted; the counter never passes 5 |
| WebSocketService.Close | satonic-app/src/services/websocket.ts:48-70 | afterwards there is no socket and no heartbeat; only the tracked reconnect timer is cleared, and other pending timers stay; the counter and the listeners are kept |
| WebSocketService.Connect | satonic-app/src/services/websocket.ts:30-46 | an existing socket is closed first; a created socket is connecting; a constructor failure leaves no socket and, below five attempts, counts one and schedules the reconnect timer with its delay, otherwise emits `reconnect_failed` |
| WebSocketService.HandleOpen | satonic-app/src/services/websocket.ts:113-124 | emits `connected`, resets the counter to 0 and registers the heartbeat |
| WebSocketService.HandleClose | satonic-app/src/services/websocket.ts:159-172 | emits `disconnected` with the code and reason; a reconnect is attempted iff the code is neither 1000 nor 1001; the heartbeat is always cleared |
| WebSocketService.HandleMessage | satonic-app/src/services/websocket.ts:126-157 | emits exactly one event iff the data parses to an object whose `type` is welcome, auction_update, bid_placed or error, under that name with the payload, except that `error` is emitted only while someone listens (otherwise the emitter's throw is caught by the handler); it never throws |
| WebSocketService.HandleError | satonic-app/src/services/websocket.ts:174-177 | with an `error` listener, the "WebSocket connection error" event is emitted; without one, nothing is emitted and "Unhandled error. (WebSocket connection error)" is thrown |
| WebSocketService.Subscribe | satonic-app/src/services/websocket.ts:72-84 | on an open socket it sends the subscribe frame; otherwise it connects |
| WebSocketService.Unsubscribe | satonic-app/src/services/websocket.ts:86-97 | a frame is sent iff the socket is open; otherwise nothing happens |
| WebSocketService.PlaceBid | satonic-app/src/services/websocket.ts:99-111 | on an open socket it sends the bid frame; otherwise it sends nothing and emits the error to the `error` listeners, or, with none registered, throws "Unhandled error. (WebSocket not connected. Cannot place bid.)" to the caller |
| WebSocketService.BidBeforeOpenThrows | satonic-app/src/services/websocket.ts:99-111 | as created, the service has no `error` listener, so a bid placed before the socket opens throws |
| WebSocketService.Next | satonic-app/src/services/websocket.ts:30-194 | every call, listener change, socket event or timer firing keeps the counter within 5 and a tracked timer pending; the counter goes down only on an open; only `placeBid` and a socket error can throw, and only with no `error` listener |
| WebSocketService.Run | satonic-app/src/services/websocket.ts:179-189 | along any sequence of inputs without an open, the counter never goes down |
| WebSocketService.TwoTimersPending | satonic-app/src/services/websocket.ts:30-46 | two constructor failures with no socket leave two reconnect timers pending, and `close` can clear only one of them |
| WebSocketService.RunKeepsValid | satonic-app/src/services/websocket.ts:17-18 | whatever sequence of calls, socket events and timer firings occurs, the counter never exceeds 5 |
| WebSocketService.TimersBoundedWithoutOpen | satonic-app/src/services/websocket.ts:179-189 | between successful opens, at most 5 minus the current count reconnect timers are scheduled, and each one counted an attempt |
| UnisatService.Begin | satonic-app/src/services/unisat.ts:12-32 | an authenticated client gets true with the lock untouched; otherwise, while a sign-in runs or within 2000 ms of the last one, the answer is false with the lock untouched; a call that proceeds takes the lock and stamps `now` |
| UnisatService.Finish | satonic-app/src/services/unisat.ts:133-136 | the lock is released and the stamp kept |
| UnisatService.ProceededSpacedByCooldown | satonic-app/src/services/unisat.ts:17-32 | however calls interleave, sign-ins that get past the guard start at least 2000 ms after each other and after the stamp they found |
| UnisatService.LockExcludesOthers | satonic-app/src/services/unisat.ts:17-20 | while a sign-in holds the lock, no other call gets past the guard and the lock is unchanged |
| UnisatService.SignMessageFor | satonic-app/src/services/unisat.ts:89-93 | the message is the fixed prefix followed by the address |
| UnisatService.SigningAccount | satonic-app/src/services/unisat.ts:64-88 | an account is used only if the extension is present and the second `getAccounts` returns a non-empty list, and then it is that list's first entry |
| UnisatService.StoreLoginToken | satonic-app/src/services/unisat.ts:117-120 | reading `data.token` fails iff the data is `null`; a string token is stored as `setAuthToken` stores it; any other token leaves storage unchanged |
| UnisatService.SignInAsWritten | satonic-app/src/services/unisat.ts:34-128 | a signature is requested iff an account was obtained, for the message built from the first account; the login gets that account, signature and message; a true answer only follows a successful login, and the storage then holds the login's token as `setAuthToken` stores it; otherwise storage is unchanged |
| UnisatService.EnsureWalletAuthenticatedAsWritten | satonic-app/src/services/unisat.ts:10-137 | early answers leave lock and storage untouched; a call that proceeds ends with the lock released, the stamp at `now`, and the sign-in's answer |
| UnisatService.SignIn | satonic-app/src/services/unisat.ts:34-128 | the same wallet calls, login and storage as written, but the answer is true only when the client is then authenticated |
| UnisatService.EnsureWalletAuthenticated | satonic-app/src/services/unisat.ts:10-137 | the same guard and lock handling, but the sign-in's answer counts only when a usable token was stored |
| UnisatService.SignInStoresToken | satonic-app/src/services/unisat.ts:110-123 | a true sign-in leaves the client authenticated with the backend's token, trimmed |
| UnisatService.TrueMeansAuthenticated | satonic-app/src/services/unisat.ts:10-14 | a true answer always means the client is authenticated afterwards |
| UnisatService.AsWrittenDiffersOnlyWithoutToken | satonic-app/src/services/unisat.ts:119-123 | the two versions leave the same storage and lock, and their answers differ only when the written one says true with no usable token |
| UnisatService.BlankTokenAnswersTrueAsWritten | satonic-app/src/services/unisat.ts:119-123 | a login returning the token "   " makes the written version answer true with no token usable |
| UnisatService.ToInscription | satonic-app/src/services/unisat.ts:223-236 | the id, address, preview and content come from the NFT's fields; the content type defaults to text/plain and the genesis transaction to "" |
| UnisatService.GetAddressInscriptions | satonic-app/src/services/unisat.ts:203-249 | the total always equals the list length; the page is empty when unauthenticated, on a failure, or when any NFT is `null`; otherwise there is one inscription per NFT, in order |
| UnisatService.GetConnectedAddress | satonic-app/src/services/unisat.ts:367-379 | the first account iff the extension is present and returns a non-empty list; otherwise nothing |
| HomePage.FallbackAuctions | satonic-app/src/app/page.tsx:10-50 | three active sample auctions, each started before and ending after the load time |
| HomePage.BeginFetch | satonic-app/src/app/page.tsx:61-62 | each attempt starts loading with the banner cleared |
| HomePage.CompleteFetch | satonic-app/src/app/page.tsx:70-101 | a listing replaces the auctions; a failure with fewer than two retries schedules a retry after 2^retryCount seconds; a later failure installs the sample auctions and the banner; loading always ends |
| HomePage.Fetch | satonic-app/src/app/page.tsx:59-102 | loading ends with the count unchanged; the banner is the fallback message exactly when the sample auctions were installed and is empty otherwise; a retry is scheduled iff the attempt failed with fewer than two retries |
| HomePage.RetryTimerFired | satonic-app/src/app/page.tsx:77-79 | the retry count goes up by one and nothing else changes |
| HomePage.ThrownLikeRefused | satonic-app/src/app/page.tsx:72-98 | a thrown error and a failure response lead to the same state |
| HomePage.RetryDelays | satonic-app/src/app/page.tsx:76 | the retries wait 1000 and then 2000 ms |
| HomePage.HandleRetry | satonic-app/src/app/page.tsx:105-109 | the count goes to 0, and a fetch starts iff the count was not 0 already (the effect depends on the count only) |
| HomePage.RetryAfterFallbackRestarts | satonic-app/src/app/page.tsx:80-109 | after the fallback, the retry button starts a new fetch with the count at zero |
| HomePage.LoadAuctions | satonic-app/src/app/page.tsx:58-105 | from mount the page makes 1 to 3 fetches and waits 1000 and then 2000 ms between them; it stops at the first listing and shows it; after three failures it shows the sample auctions and the banner |
| CreateAuctionCard.ValidationError | satonic-app/src/components/auction/CreateAuctionCard.tsx:41-47 | a NaN or non-positive bid is rejected first; then a NaN duration, or one under 1 or over 168 hours, is rejected; no message iff both are valid |
| CreateAuctionCard.ToSatoshis | satonic-app/src/components/auction/CreateAuctionCard.tsx:50 | the largest whole number of satoshis not above the bid, and not negative for a positive bid |
| CreateAuctionCard.ChosenNftId | satonic-app/src/components/auction/CreateAuctionCard.tsx:61 | the NFT's `id` when non-empty, else its inscription id |
| CreateAuctionCard.BuildRequest | satonic-app/src/components/auction/CreateAuctionCard.tsx:50-66 | the request carries the chosen NFT id, the satoshi price, the start time, and an end time strictly after it by the given hours |
| CreateAuctionCard.Submit | satonic-app/src/components/auction/CreateAuctionCard.tsx:33-81 | a request is sent iff validation passes; the dialog closes iff the backend confirms, and `onSuccess` then runs iff the parent passed one; otherwise an error is toasted; loading is off at the end |
| CreateAuctionCard.RequestRecoversDuration | satonic-app/src/components/auction/CreateAuctionCard.tsx:45-66 | the request sent starts at submission and lasts a whole number of hours, exactly the duration chosen in the form, which lies between 1 and 168 |
| CreateAuctionCard.AcceptedDurations | satonic-app/src/components/auction/CreateAuctionCard.tsx:45-54 | with a valid bid, a request is sent iff the duration is 1 to 168 hours, and the auction then ends 1 to 168 hours after it starts |
| AuctionList.DisplayAuctions | satonic-app/src/components/auction/AuctionList.tsx:17 | with no limit or a zero limit, all auctions; with a positive limit, the first `min(limit, n)`; always a prefix of the list |
| AuctionList.PositiveLimitTakesPrefix | satonic-app/src/components/auction/AuctionList.tsx:17 | a positive limit no larger than the list shows exactly the first `limit` auctions |
| AuctionList.SkeletonCount | satonic-app/src/components/auction/AuctionList.tsx:63 | `limit` skeleton rows for a limit from 1 to 2^32 - 1, 5 without one or for zero, and a RangeError for a negative limit or one of 2^32 or more |
| AuctionList.SkeletonMatchesPage | satonic-app/src/components/auction/AuctionList.tsx:17-63 | with a positive limit and a full page, the skeleton rows are as many as the rows shown later |
| AuctionList.CollectDetails | satonic-app/src/components/auction/AuctionList.tsx:20-41 | an NFT id is in the details map iff some auction with that id got a successful reply |
| AuctionList.CollectDetailsKeepsLast | satonic-app/src/components/auction/AuctionList.tsx:26-35 | the entry for an NFT id is the data of the last successful reply for it |
| AuctionList.RefreshDetails | satonic-app/src/components/auction/AuctionList.tsx:20-41 | the map is rebuilt from the replies when there are auctions, and kept as it was for an empty list |
| AuctionList.RowTitle | satonic-app/src/components/auction/AuctionList.tsx:109 | the NFT's title if truthy, else the auction's title if non-empty, else "Auction #" followed by the first 8 characters of the auction id |
| AuctionList.SellerAbbrev | satonic-app/src/components/auction/AuctionList.tsx:113 | for an address of at least 10 characters, its first five, "...", and its last five |
| AuctionList.PriceLabel | satonic-app/src/components/auction/AuctionList.tsx:125 | "Current bid" exactly when the current bid is present and non-zero, "Starting price" otherwise |
| AuctionList.ShownPrice | satonic-app/src/components/auction/AuctionList.tsx:123 | the current bid when present and non-zero, else the start price |
| AuctionList.StatusWord | satonic-app/src/components/auction/AuctionList.tsx:117 | "Ends" iff the auction is active, "Ended" otherwise |
| AuctionList.RowFor | satonic-app/src/components/auction/AuctionList.tsx:84-126 | a row links to the auction, shows its end time, status word, price and label, the title chosen from its NFT details, and an image exactly when those details have a truthy `image_url`, which is then the image shown |
| AuctionList.Render | satonic-app/src/components/auction/AuctionList.tsx:60-133 | while loading, only skeletons or a RangeError; otherwise "No auctions found" iff the shown list is empty, else one row per shown auction, in order |
| AuctionCard.HoursLeft | satonic-app/src/components/auction/AuctionCard.tsx:19 | the whole number of hours that fits into the remaining time, which is not negative |
| AuctionCard.TimeLeft | satonic-app/src/components/auction/AuctionCard.tsx:18-19 | "Ended" for an ended auction; "NaNh" exactly for an Invalid Date end time; otherwise digits followed by "h" |
| AuctionCard.TimeLeftRoundTrip | satonic-app/src/components/auction/AuctionCard.tsx:19 | the hours are read back exactly from the time-left text |
| AuctionCard.HoursLeftShrinks | satonic-app/src/components/auction/AuctionCard.tsx:19 | as the clock advances, the hours left never grow |
| AuctionCard.Card | satonic-app/src/components/auction/AuctionCard.tsx:17-72 | the caption is "Ended" or "Time Left", the button "View Details" or "Place Bid", and the time left "Ended" exactly when the end time is a valid date before `now`, and "NaNh" exactly for an Invalid Date; the plain image is used iff the URL contains "placehold.co" |
| UseWallet.HandleAccountsChanged | satonic-app/src/hooks/useWallet.ts:72-94 | a non-empty list gives the connected state for the first account, with no balance and no inscriptions, and starts the fetches; an empty list gives the initial state |
| UseWallet.AccountsChanged | satonic-app/src/hooks/useWallet.ts:72-130 | once the fetches have written back, an account change leaves the wallet connected to the first account with the balance and the inscriptions loaded |
| UseWallet.AccountsChangedAsWritten | satonic-app/src/hooks/useWallet.ts:72-130 | as written, the fetches spread the state from mount time, so after any account change the wallet reads disconnected |
| UseWallet.FetchWritesCommute | satonic-app/src/hooks/useWallet.ts:107-130 | applied to the latest state, the balance write and the inscriptions write commute |
| UseWallet.FetchBothAsWritten | satonic-app/src/hooks/useWallet.ts:107-130 | each write spreads the render's state, so the connected flag and the address are those of that render, whatever was written in between |
| UseWallet.FetchBoth | satonic-app/src/hooks/useWallet.ts:107-130 | applied to the latest state, the connection and the wallet type are kept, the balance is the confirmed 0, and the inscriptions and total are the fetched page |
| UseWallet.DisconnectWallet | satonic-app/src/hooks/useWallet.ts:163-172 | exactly the initial state declared at hook creation |
| UseWallet.DisconnectUndoesConnect | satonic-app/src/hooks/useWallet.ts:84-93 | disconnecting after any account change gives the initial state, as an empty account change does |
| UseWallet.ConnectGuard | satonic-app/src/hooks/useWallet.ts:133-139 | any wallet type but unisat is refused first; then a missing extension is refused; the guard passes iff both hold |
| UseWallet.ConnectWalletAsWritten | satonic-app/src/hooks/useWallet.ts:132-161 | a guard failure throws before any wallet call; a returning call keeps the connected flag and the address of the render it was called from |
| UseWallet.ConnectWallet | satonic-app/src/hooks/useWallet.ts:132-161 | a guard failure throws before any wallet call; a wallet error is rethrown; no account leaves the state as it was; otherwise the wallet ends connected to the first account with the balance and the inscriptions loaded |
| UseWallet.StaleStateUndoesConnection | satonic-app/src/hooks/useWallet.ts:145-155 | connecting from a disconnected page ends disconnected as written, and connected to the account when corrected |
| UseWallet.StaleStateUndoesAccountChange | satonic-app/src/hooks/useWallet.ts:72-130 | an account change ends disconnected as written, and connected to the new account when corrected |
| UseWallet.SignMessage | satonic-app/src/hooks/useWallet.ts:174-185 | refused iff the wallet is not connected; otherwise the extension is asked for a bip322-simple signature of the message, and its answer is passed through |
| UseWallet.NoSigningAfterDisconnect | satonic-app/src/hooks/useWallet.ts:163-185 | after a disconnect, `signMessage` refuses |

## Left out

- Browser I/O is not modelled. `fetch`, `localStorage`, `window.unisat`,
  `WebSocket` objects, toasts, console logging and the `auth_changed` and
  `user_updated` events are absent. Responses, storage maps, wallet answers
  and socket events are inputs instead.
- The server-side branches (`typeof window === 'undefined'`) are left out,
  because the model is of the browser.
- Storage exceptions and their `catch` blocks are left out, because storage
  is a total map.
- Timers and the event loop are left out. Each delay is returned as a
  value. The 30-second heartbeat ping is not modelled. Reconnect timers
  are counted rather than identified. A fired timer counts as no longer
  pending.
- WebSocketService.EmitError throws the text the browser `events` package
  builds for an `error` event that nobody listens to. Listeners come and go
  through the `OnError` and `OffError` inputs. Listeners of the other
  events are not tracked, because emitting those never throws.
- JsValue.Stringify writes members in the order the value lists them. A
  value from `JSON.parse` is taken as already in JavaScript's property
  order, with array-index keys first. The model does not sort them itself.
- JsText.LowerChar maps every character other than A-Z and the Kelvin sign
  to itself. `toLowerCase` changes many more, but the only other ASCII
  letter it yields from a non-ASCII character is the `i` of U+0130. None of
  "auth", "token" and "user" contains `i`, so the auth-key test is
  unaffected.
- ApiClient.FormEncode: strings are sequences of Unicode scalar values. A
  lone surrogate, which the serializer replaces with U+FFFD, is out of
  scope.
- AuctionList.RowTitle, AuctionList.SellerAbbrev: lengths and cuts count
  Unicode scalar values, but JavaScript's `length` and `substring` count
  UTF-16 code units. The two agree only on text in the Basic Multilingual
  Plane. Auction ids and Bitcoin addresses are ASCII. An id with characters
  above U+FFFF gets fewer of them in the source's "Auction #" prefix, and a
  cut through a surrogate pair cannot be represented.
- JSON numbers are integers, and `String(n)` is modelled for integers only.
  Fractional values in a body and exponent notation from 10^21 up are out of
  scope.
- The request options that `apiRequest` passes through (method, body) are
  not modelled; only its headers are. The response is given as its status,
  lower-cased headers and parsed body.
- ApiClient.QueryValueText: query values are strings or integers only. The
  client passes no other kind.
- Of the endpoints, only `auction.getAll` and `auth.walletLogin` are
  modelled. The other `api` methods only choose a path and pass their
  arguments on.
- The untyped `api.get`/`post`/`put`/`delete` helpers are left out. They
  repeat `fetch` and throw when the status is not ok.
- `debugAuthToken` is left out. It only logs and tests a regular expression.
- AuthSession.ClearAuth: the `disconnectWallet` call at the end is left
  out. It belongs to `lib/wallet.ts`, which is not part of this model.
- AuthSession.GetCurrentUser returns the stored user JSON text and does not
  parse it.
- `setupAuthListener` is left out. It only registers event listeners.
- WebSocketService.HandleClose: the `disconnected` event carries only the
  code and the reason of the browser's CloseEvent.
- The `WebSocket` URL comes from `api.ws.getUrl`. It is not modelled.
- The Unisat network switch (`switchChain`, `getChain`) is left out. Its
  errors are caught and ignored, so it cannot change the outcome.
- `getAddressBalance` is left out. It always reports 0 confirmed satoshis,
  which `UseWallet.ConfirmedBalance` records.
- `getInscriptionDetail`, `getAddressUtxos`, `getInscriptionContent` and
  `isWalletConnected` are left out. They reuse the NFT-to-inscription
  mapping and the account check that are modelled.
- UnisatService.ToInscription: `inscriptionNumber` (`parseInt`) and
  `timestamp` (`Date.parse`) are left out. The constant fields
  (`outputValue`, `location`, `output`, `offset`) are omitted too.
- UnisatService.SigningAccount: a `null` account list is read as an empty
  one.
- HomePage.CompleteFetch: a listing whose `auctions` field is missing is out
  of scope.
- `toISOString` formatting and the sample auctions' `created_at` and
  `updated_at` are left out.
- CreateAuctionCard.ToSatoshis multiplies exactly in the reals. It does not
  model the double rounding of `startingBidBTC * 100000000`, nor an infinite
  bid.
- `parseFloat` and `parseInt` are taken as already applied.
- CreateAuctionCard.Submit: the random PSBT placeholder is an input.
- AuctionList.Render leaves out date and price formatting
  (`formatDistanceToNow`, `Intl.NumberFormat`). Rows carry the end time and
  the price as numbers.
- AuctionList.CollectDetails takes one reply per auction, in order.
- AuctionCard.TimeLeft reads the clock once. The source reads it twice
  (`new Date()`, then `Date.now()`), so at the exact end instant it could
  show "-1h".
- The mount-time `checkConnection` of `useWallet` is left out. It performs
  the same writes as an account change, with the fetches awaited in turn.
- The listener registration and clean-up in `useWallet` are left out.
- The conflicting global declarations of `window.unisat` are left out.

## Findings

| source | as written | input that shows it | evidently intended | confidence | as-written member | corrected member |
|---|---|---|---|---|---|---|
| satonic-app/src/services/unisat.ts:119-123 | After any successful login, `setAuthToken(data.token)` is called and the function answers true. A whitespace-only token is stored as "", which `getAuthToken` treats as no token. | The backend answers `{"success": true, "data": {"token": "   "}}`. Sign-in answers true, yet no later request carries a token. | Answer true only once a usable token is stored. | high; not executed | UnisatService.EnsureWalletAuthenticatedAsWritten (counterexample: UnisatService.BlankTokenAnswersTrueAsWritten) | UnisatService.EnsureWalletAuthenticated (proved: UnisatService.TrueMeansAuthenticated, UnisatService.SignInStoresToken) |
| satonic-app/src/hooks/useWallet.ts:107-130 | `fetchBalance` and `fetchInscriptions` write `{...state, ...}` with the state of the render that created them. The connected state written just before is undone. | `connectWallet('unisat')` from a disconnected page, with `requestAccounts` returning `["tb1qaddr"]`, ends with `isConnected` false and address null. Every account change does the same, because its handler was created at mount. | Each write updates the latest state (a functional `setState`), leaving the wallet connected with the balance and the inscriptions loaded. | high; not executed | UseWallet.ConnectWalletAsWritten (counterexample: UseWallet.StaleStateUndoesConnection, UseWallet.StaleStateUndoesAccountChange) | UseWallet.ConnectWallet (proved in its contract; UseWallet.AccountsChanged) |

=== FILE: api_client.dfy ===
/** The REST client of `lib/api.ts`: the bearer token kept in storage, the
    headers every request carries, the decoding of a fetch response into an
    `ApiResponse`, the query string of the auction listing, and the argument
    and token checks of the wallet login. The network and the backend are
    inputs: a request's outcome is given as a `FetchOutcome`. */
module ApiClient {
  import opened JsText
  import opened JsNumber
  import opened JsValue
  import opened Storage

  const AuthTokenKey: string := "satonic_auth_token"

  // ---------------------------------------------------------------------
  // Token storage

  /** `getAuthToken`: no token when the stored value is missing, empty or
      whitespace only; otherwise the stored value with surrounding
      whitespace removed. */
  function GetAuthToken(st: Store): (r: Option<string>)
    ensures r.None? <==> AuthTokenKey !in st || IsBlank(st[AuthTokenKey])
    ensures r.Some? ==> r.value == Trim(st[AuthTokenKey])
    ensures r.Some? ==> r.value != "" && !IsWhitespace(r.value[0]) && !IsWhitespace(r.value[|r.value| - 1])
  {
    if AuthTokenKey !in st then None
    else
      var t := Trim(st[AuthTokenKey]);
      if t == "" then None else Some(t)
  }

  /** `isAuthenticated` of the REST client: a usable token is stored. */
  predicate IsAuthenticated(st: Store) {
    GetAuthToken(st).Some?
  }

  /** `setAuthToken`: an empty argument is ignored; anything else is stored
      trimmed. No other key changes. */
  function SetAuthToken(st: Store, token: string): (r: Store)
    ensures token == "" ==> r == st
    ensures token != "" ==> AuthTokenKey in r && r[AuthTokenKey] == Trim(token)
    ensures SameExcept(st, r, {AuthTokenKey})
  {
    if token == "" then st else st[AuthTokenKey := Trim(token)]
  }

  /** After `setAuthToken(t)` with a non-empty `t`, `getAuthToken()` gives
      `t.trim()`, or nothing when `t` is whitespace only. */
  lemma SetThenGetAuthToken(st: Store, token: string)
    requires token != ""
    ensures IsBlank(token) ==> GetAuthToken(SetAuthToken(st, token)) == None
    ensures !IsBlank(token) ==> GetAuthToken(SetAuthToken(st, token)) == Some(Trim(token))
  {
    TrimIdempotent(token);
  }

  /** `removeAuthToken`: the token key is gone, nothing else changes. */
  function RemoveAuthToken(st: Store): (r: Store)
    ensures AuthTokenKey !in r
    ensures SameExcept(st, r, {AuthTokenKey})
    ensures !IsAuthenticated(r)
  {
    st - {AuthTokenKey}
  }

  /** The keys `resetAuthState` clears besides the token: those whose
      lower-cased name contains "auth", "token" or "user". None of the three
      words contains `i`, so `ToLower` decides this as `toLowerCase`
      does. */
  predicate IsAuthRelatedKey(k: string) {
    var l := ToLower(k);
    Includes(l, "auth") || Includes(l, "token") || Includes(l, "user")
  }

  /** The storage `resetAuthState` leaves behind: every entry whose key is
      neither the token key nor auth-related. */
  function AuthStateCleared(st: Store): (r: Store)
    ensures forall k :: k in r <==> k in st && k != AuthTokenKey && !IsAuthRelatedKey(k)
    ensures forall k :: k in r ==> r[k] == st[k]
  {
    map k | k in st && k != AuthTokenKey && !IsAuthRelatedKey(k) :: st[k]
  }

  /** Clearing the auth state ends the session and a second reset changes
      nothing. */
  lemma AuthStateClearedLogsOut(st: Store)
    ensures !IsAuthenticated(AuthStateCleared(st))
    ensures "user" !in AuthStateCleared(st)
    ensures AuthStateCleared(AuthStateCleared(st)) == AuthStateCleared(st)
  {
    assert OccursAt(ToLower("user"), "user", 0);
  }

  /** The lower-casing is Unicode's, not ASCII's: a key spelled with the
      Kelvin sign, which lower-cases to `k`, counts as a token key. */
  lemma KelvinSignKeyCleared()
    ensures "TO\U{212A}EN" !in AuthStateCleared(map["TO\U{212A}EN" := "x"])
  {
    assert OccursAt(ToLower("TO\U{212A}EN"), "token", 0);
  }

  /** `resetAuthState`: removes the token, then walks the remaining keys,
      collects the auth-related ones, and removes each of them. The walk
      order of `localStorage.key(i)` is not specified, so any order is
      allowed. */
  method ResetAuthState(st: Store) returns (r: Store)
    ensures r == AuthStateCleared(st)
  {
    var s := st - {AuthTokenKey};
    var authKeys: seq<string> := [];
    var pending := s.Keys;
    while pending != {}
      invariant pending <= s.Keys
      invariant forall k :: k in authKeys <==> k in s && k !in pending && IsAuthRelatedKey(k)
      decreases pending
    {
      var k :| k in pending;
      if IsAuthRelatedKey(k) {
        authKeys := authKeys + [k];
      }
      pending := pending - {k};
    }
    var base := s;
    var i := 0;
    while i < |authKeys|
      invariant 0 <= i <= |authKeys|
      invariant forall k :: k in s <==> k in base && k !in authKeys[..i]
      invariant forall k :: k in s ==> s[k] == base[k]
    {
      s := s - {authKeys[i]};
      i := i + 1;
    }
    assert authKeys[..i] == authKeys;
    r := s;
  }

  // ---------------------------------------------------------------------
  // Request headers

  /** The headers `apiRequest` sends: a JSON content type, a bearer
      `Authorization` when a token is stored, and the caller's own headers,
      which win over both defaults. */
  function RequestHeaders(st: Store, callerHeaders: map<string, string>): (h: map<string, string>)
    ensures h.Keys == {"Content-Type"} + callerHeaders.Keys
                      + (if IsAuthenticated(st) then {"Authorization"} else {})
    ensures forall k :: k in callerHeaders ==> h[k] == callerHeaders[k]
    ensures "Content-Type" !in callerHeaders ==> h["Content-Type"] == "application/json"
    ensures "Authorization" !in callerHeaders ==>
              ("Authorization" in h <==> IsAuthenticated(st))
    ensures "Authorization" !in callerHeaders && IsAuthenticated(st) ==>
              h["Authorization"] == "Bearer " + GetAuthToken(st).value
  {
    var defaults := map["Content-Type" := "application/json"];
    var token := GetAuthToken(st);
    var withAuth :=
      if token.Some? then
        TrimIdempotent(st[AuthTokenKey]);
        defaults["Authorization" := "Bearer " + Trim(token.value)]
      else defaults;
    withAuth + callerHeaders
  }

  // ---------------------------------------------------------------------
  // Response decoding

  /** What `apiRequest` returns: `{success: true, data}` or
      `{success: false, error, status?}`. The error is passed through from
      the body untyped, so it is a JSON value. */
  datatype ApiResponse = Success(data: Json) | Failure(error: Json, status: Option<int>)

  /** The body as `response.json()` would see it. */
  datatype Body = Parsed(json: Json) | Malformed

  /** A received response; header names are lower case, as `Headers.get`
      looks them up case-insensitively. */
  datatype HttpResponse = HttpResponse(status: int, headers: map<string, string>, body: Body)

  /** The result of `fetch`: a network-level rejection with its message, or
      a response. */
  datatype FetchOutcome = Rejected(message: string) | Received(response: HttpResponse)

  datatype RequestResult = RequestResult(response: ApiResponse, store: Store)

  const AuthRequiredMessage: string := "Authentication required. Please sign in again."
  const UnknownApiError: string := "Unknown API error"
  /** Both a non-JSON body and a body that fails to parse end here: the body
      has already been read, so the second `response.text()` rejects and the
      fallback text is used. */
  const ParseFailureMessage: string := "Failed to parse response: Could not read response text"
  // A body of `null` ends here too: logging `Object.keys(null)` throws
  // inside the same `try`.

  /** A status whose response the Fetch Standard gives a null body, among
      those `fetch` can resolve with: 205 and 304 (204 is answered before the
      body is looked at). Whatever the server sent, `response.json()` then
      parses the empty text and rejects, and the second `response.text()`
      resolves to the empty text, since a null body is never used up. */
  predicate NullBodyStatus(status: int) {
    status == 205 || status == 304
  }

  /** The parse failure of a null body: the text read back is empty. */
  const NullBodyParseMessage: string := "Failed to parse response: "

  /** `response.ok`. */
  predicate IsOk(status: int) {
    200 <= status <= 299
  }

  function HeaderValue(headers: map<string, string>, name: string): Option<string> {
    if name in headers then Some(headers[name]) else None
  }

  /** The 401 signals that the token itself is bad: `x-auth-failed: true`, or
      a `WWW-Authenticate` challenge carrying `invalid_token` (section 3.1 of
      RFC 6750). */
  predicate AuthProblem(headers: map<string, string>) {
    || HeaderValue(headers, "x-auth-failed") == Some("true")
    || ("www-authenticate" in headers && Includes(headers["www-authenticate"], "invalid_token"))
  }

  predicate IsJsonContent(headers: map<string, string>) {
    "content-type" in headers && Includes(headers["content-type"], "application/json")
  }

  /** The message of the `TypeError` thrown by `'success' in data` when
      `data` is a truthy primitive (V8's wording). */
  function InOperatorError(data: Json): string
    requires !data.JArray? && !data.JObject?
  {
    "Cannot use 'in' operator to search for 'success' in " + PrimitiveToString(data)
  }

  /** The body reaches the envelope check: it is declared JSON, parses,
      and is not `null`. */
  predicate Decodable(resp: HttpResponse) {
    IsJsonContent(resp.headers) && resp.body.Parsed? && !resp.body.json.JNull?
  }

  /** The body is in the backend's `{success, data, error}` format. */
  predicate IsEnvelope(data: Json) {
    Truthy(data) && HasKey(data, "success")
  }

  /** Decoding of a parsed JSON body (`api.ts` lines 389-416). */
  function DecodeBody(status: int, data: Json): (r: ApiResponse)
    ensures IsEnvelope(data) ==>
              (r.Success? <==> TruthyField(Field(data, "success")) && TruthyField(Field(data, "data")))
    ensures IsEnvelope(data) && r.Success? ==> Some(r.data) == Field(data, "data")
    ensures IsEnvelope(data) && r.Failure? ==> r.status == Some(status)
    ensures IsEnvelope(data) && r.Failure? && !TruthyField(Field(data, "error")) ==>
              r.error == JString(UnknownApiError)
    ensures IsEnvelope(data) && r.Failure? && TruthyField(Field(data, "error")) ==>
              Some(r.error) == Field(data, "error")
    ensures (!Truthy(data) || data.JArray? || (data.JObject? && !HasKey(data, "success"))) ==>
              (r.Success? <==> IsOk(status)) && (r.Success? ==> r.data == data)
  {
    if Truthy(data) && !data.JArray? && !data.JObject? then
      Failure(JString(InOperatorError(data)), None)
    else if IsEnvelope(data) then
      if TruthyField(Field(data, "success")) && TruthyField(Field(data, "data")) then
        Success(Field(data, "data").value)
      else
        var e := Field(data, "error");
        Failure(if TruthyField(e) then e.value else JString(UnknownApiError), Some(status))
    else if IsOk(status) then
      Success(data)
    else
      var e := if data.JNull? then None else Field(data, "error");
      Failure(
        if TruthyField(e) then e.value
        else if data.JString? then data
        else JString(Stringify(data)),
        Some(status))
  }

  /** `apiRequest` after the request has been sent: the response it returns
      and the storage it leaves. */
  function ApiRequest(st: Store, outcome: FetchOutcome): (r: RequestResult)
    ensures outcome.Rejected? ==> r.response == Failure(JString(outcome.message), None)
    ensures outcome.Received? && outcome.response.status == 204 ==>
              r.response == Success(JObject([]))
    ensures outcome.Received? && outcome.response.status == 401 ==>
              r.response == Failure(JString(AuthRequiredMessage), None)
    ensures outcome.Received? && outcome.response.status == 401 && AuthProblem(outcome.response.headers) ==>
              r.store == RemoveAuthToken(st)
    ensures !(outcome.Received? && outcome.response.status == 401 && AuthProblem(outcome.response.headers)) ==>
              r.store == st
    ensures outcome.Received? && NullBodyStatus(outcome.response.status) ==>
              r.response == Failure(JString(NullBodyParseMessage), None)
    ensures outcome.Received? && outcome.response.status != 204 && outcome.response.status != 401
            && !NullBodyStatus(outcome.response.status) && !Decodable(outcome.response) ==>
              r.response == Failure(JString(ParseFailureMessage), None)
    ensures outcome.Received? && outcome.response.status != 204 && outcome.response.status != 401
            && !NullBodyStatus(outcome.response.status) && Decodable(outcome.response) ==>
              r.response == DecodeBody(outcome.response.status, outcome.response.body.json)
  {
    match outcome
    case Rejected(message) => RequestResult(Failure(JString(message), None), st)
    case Received(resp) =>
      if resp.status == 204 then
        RequestResult(Success(JObject([])), st)
      else if resp.status == 401 then
        RequestResult(Failure(JString(AuthRequiredMessage), None),
                      if AuthProblem(resp.headers) then RemoveAuthToken(st) else st)
      else if NullBodyStatus(resp.status) then
        RequestResult(Failure(JString(NullBodyParseMessage), None), st)
      else if !Decodable(resp) then
        RequestResult(Failure(JString(ParseFailureMessage), None), st)
      else
        RequestResult(DecodeBody(resp.status, resp.body.json), st)
  }

  /** The backend's success envelope `{"success": true, "data": d}`. */
  function SuccessEnvelope(d: Json): Json {
    JObject([Member("success", JBool(true)), Member("data", d)])
  }

  /** The backend's error envelope `{"success": false, "error": e}`. */
  function ErrorEnvelope(e: string): Json {
    JObject([Member("success", JBool(false)), Member("error", JString(e))])
  }

  function JsonResponse(status: int, body: Json): FetchOutcome {
    Received(HttpResponse(status, map["content-type" := "application/json"], Parsed(body)))
  }

  /** A success envelope sent by the backend comes out as the data it
      carries, whatever the status other than 204, 401 and the null-body
      ones, provided the data is truthy; a falsy payload is reported as an
      error. */
  lemma SuccessEnvelopeRoundTrip(st: Store, status: int, d: Json)
    requires status != 204 && status != 401 && !NullBodyStatus(status)
    ensures Truthy(d) ==> ApiRequest(st, JsonResponse(status, SuccessEnvelope(d))).response == Success(d)
    ensures !Truthy(d) ==>
              ApiRequest(st, JsonResponse(status, SuccessEnvelope(d))).response
              == Failure(JString(UnknownApiError), Some(status))
  {
    assert OccursAt("application/json", "application/json", 0);
    assert Decodable(JsonResponse(status, SuccessEnvelope(d)).response);
    var ms := SuccessEnvelope(d).members;
    assert Lookup(ms, "success") == Some(JBool(true));
    assert Lookup(ms, "data") == Some(d) by {
      assert Lookup(ms[1..], "data") == Some(d);
    }
    assert IsEnvelope(SuccessEnvelope(d));
  }

  /** A 205 or 304 answer fails with the empty parse text, even when the
      server sent a success envelope: the body never reaches the client. */
  lemma NullBodyDropsEnvelope(st: Store, d: Json)
    ensures ApiRequest(st, JsonResponse(205, SuccessEnvelope(d))).response
            == Failure(JString("Failed to parse response: "), None)
    ensures ApiRequest(st, Received(HttpResponse(304, map[], Malformed))).response
            == Failure(JString("Failed to parse response: "), None)
  {
  }

  /** An error envelope comes out as a failure carrying the backend's
      message, or the generic message when that is empty, with the status. */
  lemma ErrorEnvelopeRoundTrip(st: Store, status: int, e: string)
    requires status != 204 && status != 401 && !NullBodyStatus(status)
    ensures ApiRequest(st, JsonResponse(status, ErrorEnvelope(e))).response
            == Failure(JString(if e != "" then e else UnknownApiError), Some(status))
  {
    assert OccursAt("application/json", "application/json", 0);
    var ms := ErrorEnvelope(e).members;
    assert Lookup(ms, "success") == Some(JBool(false));
    assert Lookup(ms, "error") == Some(JString(e)) by {
      assert Lookup(ms[1..], "error") == Some(JString(e));
    }
  }

  // ---------------------------------------------------------------------
  // Auction listing query

  datatype AuctionStatus = Draft | Active | Completed | Cancelled

  /** An auction as the backend lists it. Prices are in the unit the
      backend uses; times are milliseconds since the epoch. */
  datatype Auction = Auction(
    title: string,
    auctionId: string,
    nftId: string,
    sellerAddress: string,
    startPrice: real,
    currentBid: Option<real>,
    startTime: int,
    endTime: int,
    status: AuctionStatus)

  /** A property of the `params` object given to `auction.getAll`. */
  datatype QueryValue = Undefined | Text(s: string) | Number(n: int)
  datatype QueryParam = QueryParam(key: string, value: QueryValue)

  /** `value.toString()`. */
  function QueryValueText(v: QueryValue): string
    requires !v.Undefined?
  {
    match v
    case Text(s) => s
    case Number(n) => IntToString(n)
  }

  /** The positions of the defined parameters, in increasing order. */
  function DefinedIndices(params: seq<QueryParam>): (idx: seq<nat>)
    ensures forall i :: 0 <= i < |idx| ==> idx[i] < |params| && !params[idx[i]].value.Undefined?
    ensures forall i, j :: 0 <= i < j < |idx| ==> idx[i] < idx[j]
    ensures forall j :: 0 <= j < |params| && !params[j].value.Undefined? ==> j in idx
    decreases |params|
  {
    if |params| == 0 then []
    else
      var n := |params| - 1;
      var init := DefinedIndices(params[..n]);
      if params[n].value.Undefined? then init else init + [n]
  }

  /** The parameters `getAll` appends: those whose value is defined, in the
      order `Object.entries` lists the caller's object, one pair per defined
      property. */
  function DefinedParams(params: seq<QueryParam>): (r: seq<QueryParam>)
    ensures |r| == |DefinedIndices(params)|
    ensures forall i :: 0 <= i < |r| ==> r[i] == params[DefinedIndices(params)[i]]
    ensures forall i :: 0 <= i < |r| ==> !r[i].value.Undefined?
    ensures forall p :: p in r <==> p in params && !p.value.Undefined?
    decreases |params|
  {
    if |params| == 0 then []
    else
      var n := |params| - 1;
      var init := DefinedParams(params[..n]);
      assert forall k :: 0 <= k < n ==> params[..n][k] == params[k];
      if params[n].value.Undefined? then init else init + [params[n]]
  }

  predicate IsAsciiAlphanumeric(c: char) {
    ('0' <= c <= '9') || ('A' <= c <= 'Z') || ('a' <= c <= 'z')
  }

  /** The characters an `application/x-www-form-urlencoded` serialization
      can contain. */
  predicate IsFormSafe(c: char) {
    IsAsciiAlphanumeric(c) || c == '*' || c == '-' || c == '.' || c == '_' || c == '+' || c == '%'
  }

  /** UTF-8 encoding of one Unicode scalar value. */
  function Utf8(c: char): (bytes: seq<nat>)
    ensures 1 <= |bytes| <= 4
    ensures forall i :: 0 <= i < |bytes| ==> bytes[i] < 256
  {
    var v := c as int;
    if v < 0x80 then [v]
    else if v < 0x800 then [0xC0 + v / 64, 0x80 + v % 64]
    else if v < 0x10000 then [0xE0 + v / 4096, 0x80 + (v / 64) % 64, 0x80 + v % 64]
    else [0xF0 + v / 262144, 0x80 + (v / 4096) % 64, 0x80 + (v / 64) % 64, 0x80 + v % 64]
  }

  function HexDigitUpper(d: nat): (c: char)
    requires d < 16
    ensures IsFormSafe(c)
  {
    if d < 10 then ('0' as int + d) as char else ('A' as int + d - 10) as char
  }

  function PercentEncode(bytes: seq<nat>): (r: string)
    requires forall i :: 0 <= i < |bytes| ==> bytes[i] < 256
    ensures forall i :: 0 <= i < |r| ==> IsFormSafe(r[i])
  {
    if |bytes| == 0 then ""
    else ['%', HexDigitUpper(bytes[0] / 16), HexDigitUpper(bytes[0] % 16)] + PercentEncode(bytes[1..])
  }

  /** The `application/x-www-form-urlencoded` byte serializer of the URL
      Standard for one character: a space becomes `+`, ASCII alphanumerics
      and `*-._` stay, every other UTF-8 byte is written `%XX`. */
  function FormEncodeChar(c: char): (r: string)
    ensures r != []
    ensures forall i :: 0 <= i < |r| ==> IsFormSafe(r[i])
  {
    if c == ' ' then "+"
    else if IsAsciiAlphanumeric(c) || c == '*' || c == '-' || c == '.' || c == '_' then [c]
    else PercentEncode(Utf8(c))
  }

  function FormEncode(s: string): (r: string)
    ensures forall i :: 0 <= i < |r| ==> IsFormSafe(r[i])
  {
    if |s| == 0 then "" else FormEncodeChar(s[0]) + FormEncode(s[1..])
  }

  /** The value of an upper-case hexadecimal digit. */
  function HexValue(c: char): (d: nat)
    ensures d < 16
  {
    if '0' <= c <= '9' then c as int - '0' as int
    else if 'A' <= c <= 'F' then c as int - 'A' as int + 10
    else 0
  }

  lemma HexValueOfDigit(d: nat)
    requires d < 16
    ensures HexValue(HexDigitUpper(d)) == d
  {
  }

  /** The byte written as `%XX` at position `i`. */
  function ByteAt(r: string, i: nat): (b: nat)
    requires i + 3 <= |r|
    ensures b < 256
  {
    HexValue(r[i + 1]) * 16 + HexValue(r[i + 2])
  }

  /** The length of the UTF-8 sequence a lead byte starts. */
  function Utf8Length(lead: nat): (n: nat)
    ensures 1 <= n <= 4
  {
    if lead < 0x80 then 1 else if lead < 0xE0 then 2 else if lead < 0xF0 then 3 else 4
  }

  /** The code point a UTF-8 sequence of one to four bytes encodes. */
  function Utf8Value(bytes: seq<nat>): int
    requires 1 <= |bytes| <= 4
  {
    var b := seq(|bytes|, i requires 0 <= i < |bytes| => bytes[i] as int);
    if |b| == 1 then b[0]
    else if |b| == 2 then (b[0] - 0xC0) * 64 + (b[1] - 0x80)
    else if |b| == 3 then (b[0] - 0xE0) * 4096 + (b[1] - 0x80) * 64 + (b[2] - 0x80)
    else (b[0] - 0xF0) * 262144 + (b[1] - 0x80) * 4096 + (b[2] - 0x80) * 64 + (b[3] - 0x80)
  }

  predicate IsScalarValue(v: int) {
    (0 <= v < 0xD800) || (0xE000 <= v < 0x110000)
  }

  /** The lead byte of a character's encoding announces its length, and the
      bytes decode back to the character. */
  lemma Utf8RoundTrip(c: char)
    ensures Utf8Length(Utf8(c)[0]) == |Utf8(c)|
    ensures Utf8Value(Utf8(c)) == c as int
  {
    var v := c as int;
    if v < 0x80 {
    } else if v < 0x800 {
      Utf8Two(v);
    } else if v < 0x10000 {
      Utf8Three(v);
    } else {
      Utf8Four(v);
    }
  }

  lemma Utf8Two(v: int)
    requires 0x80 <= v < 0x800
    ensures 0x80 <= 0xC0 + v / 64 < 0xE0
    ensures (v / 64) * 64 + v % 64 == v
  {
  }

  lemma Utf8Three(v: int)
    requires 0x800 <= v < 0x10000
    ensures 0xE0 <= 0xE0 + v / 4096 < 0xF0
    ensures (v / 4096) * 4096 + ((v / 64) % 64) * 64 + v % 64 == v
  {
    assert v / 4096 == (v / 64) / 64;
  }

  lemma Utf8Four(v: int)
    requires 0x10000 <= v < 0x110000
    ensures 0xF0 <= 0xF0 + v / 262144
    ensures (v / 262144) * 262144 + ((v / 4096) % 64) * 4096 + ((v / 64) % 64) * 64 + v % 64 == v
  {
    assert v / 4096 == (v / 64) / 64;
    assert v / 262144 == (v / 4096) / 64;
  }

  /** The form decoding the URL Standard pairs with the serializer: `+` is
      a space, `%XX` runs are UTF-8 bytes, any other character stands for
      itself. A `%` that does not start a complete, valid sequence is kept
      as it is. */
  function FormDecode(r: string): (s: string)
    decreases |r|
  {
    if |r| == 0 then ""
    else if r[0] == '+' then " " + FormDecode(r[1..])
    else if r[0] != '%' || |r| < 3 || |r| < 3 * Utf8Length(ByteAt(r, 0)) then [r[0]] + FormDecode(r[1..])
    else
      var n := Utf8Length(ByteAt(r, 0));
      var v := Utf8Value(seq(n, k requires 0 <= k < n => ByteAt(r, 3 * k)));
      if IsScalarValue(v) then [v as char] + FormDecode(r[3 * n..])
      else [r[0]] + FormDecode(r[1..])
  }

  /** `PercentEncode` writes three characters per byte, `%` and two digits. */
  lemma {:induction false} PercentEncodeShape(bytes: seq<nat>)
    requires forall i :: 0 <= i < |bytes| ==> bytes[i] < 256
    ensures |PercentEncode(bytes)| == 3 * |bytes|
    ensures forall k :: 0 <= k < |bytes| ==>
              && PercentEncode(bytes)[3 * k] == '%'
              && PercentEncode(bytes)[3 * k + 1] == HexDigitUpper(bytes[k] / 16)
              && PercentEncode(bytes)[3 * k + 2] == HexDigitUpper(bytes[k] % 16)
  {
    if |bytes| > 0 {
      PercentEncodeShape(bytes[1..]);
      var head := ['%', HexDigitUpper(bytes[0] / 16), HexDigitUpper(bytes[0] % 16)];
      assert PercentEncode(bytes) == head + PercentEncode(bytes[1..]);
      forall k | 1 <= k < |bytes|
        ensures PercentEncode(bytes)[3 * k] == '%'
        ensures PercentEncode(bytes)[3 * k + 1] == HexDigitUpper(bytes[k] / 16)
        ensures PercentEncode(bytes)[3 * k + 2] == HexDigitUpper(bytes[k] % 16)
      {
        assert bytes[1..][k - 1] == bytes[k];
        assert 3 * k == 3 + 3 * (k - 1);
      }
    }
  }

  /** The bytes can be read back from their percent-encoding, whatever
      follows it. */
  lemma PercentDecodeBytes(bytes: seq<nat>, rest: string)
    requires forall i :: 0 <= i < |bytes| ==> bytes[i] < 256
    ensures |PercentEncode(bytes) + rest| >= 3 * |bytes|
    ensures forall k :: 0 <= k < |bytes| ==> ByteAt(PercentEncode(bytes) + rest, 3 * k) == bytes[k]
  {
    PercentEncodeShape(bytes);
    var r := PercentEncode(bytes) + rest;
    forall k | 0 <= k < |bytes|
      ensures ByteAt(r, 3 * k) == bytes[k]
    {
      HexValueOfDigit(bytes[k] / 16);
      HexValueOfDigit(bytes[k] % 16);
    }
  }

  /** Decoding undoes the encoding of one character. */
  lemma FormDecodeChar(c: char, rest: string)
    ensures FormDecode(FormEncodeChar(c) + rest) == [c] + FormDecode(rest)
  {
    var r := FormEncodeChar(c) + rest;
    if c == ' ' {
      assert r[1..] == rest;
    } else if IsAsciiAlphanumeric(c) || c == '*' || c == '-' || c == '.' || c == '_' {
      assert r[1..] == rest;
    } else {
      var bytes := Utf8(c);
      PercentEncodeShape(bytes);
      PercentDecodeBytes(bytes, rest);
      Utf8RoundTrip(c);
      var n := |bytes|;
      assert r[0] == '%';
      assert ByteAt(r, 0) == bytes[0];
      assert seq(n, k requires 0 <= k < n => ByteAt(r, 3 * k)) == bytes;
      assert r[3 * n..] == rest;
    }
  }

  /** Decoding undoes `FormEncode`: the serialization loses nothing. */
  lemma {:induction false} FormDecodeEncode(s: string)
    ensures FormDecode(FormEncode(s)) == s
    decreases |s|
  {
    if |s| > 0 {
      FormDecodeChar(s[0], FormEncode(s[1..]));
      FormDecodeEncode(s[1..]);
      assert s == [s[0]] + s[1..];
    }
  }

  /** Distinct texts are serialized differently. */
  lemma FormEncodeInjective(s: string, t: string)
    requires FormEncode(s) == FormEncode(t)
    ensures s == t
  {
    FormDecodeEncode(s);
    FormDecodeEncode(t);
  }

  /** One `key=value` pair of the serialized `URLSearchParams`. */
  function QueryPair(p: QueryParam): string
    requires !p.value.Undefined?
  {
    FormEncode(p.key) + "=" + FormEncode(QueryValueText(p.value))
  }

  function QueryPairs(defined: seq<QueryParam>): (r: seq<string>)
    requires forall i :: 0 <= i < |defined| ==> !defined[i].value.Undefined?
    ensures |r| == |defined|
    ensures forall i :: 0 <= i < |r| ==> r[i] == QueryPair(defined[i])
  {
    seq(|defined|, i requires 0 <= i < |defined| => QueryPair(defined[i]))
  }

  /** The endpoint `auction.getAll(params)` requests: `/auctions`, followed
      by `?` and the serialized parameters when there are any. */
  function AuctionsPath(params: Option<seq<QueryParam>>): (path: string)
    ensures |path| >= 9 && path[..9] == "/auctions"
  {
    PathWith(if params.Some? then DefinedParams(params.value) else [])
  }

  /** The path for the given defined parameters. */
  function PathWith(defined: seq<QueryParam>): (path: string)
    requires forall i :: 0 <= i < |defined| ==> !defined[i].value.Undefined?
    ensures |path| >= 9 && path[..9] == "/auctions"
  {
    var query := Join(QueryPairs(defined), '&');
    "/auctions" + (if query != "" then "?" + query else "")
  }

  lemma FormSafeAvoids(s: string, c: char)
    requires forall i :: 0 <= i < |s| ==> IsFormSafe(s[i])
    requires !IsFormSafe(c)
    ensures c !in s
  {
  }

  /** A serialized pair contains no `&`, and splitting it on `=` gives back
      the encoded key and value. */
  lemma QueryPairShape(p: QueryParam)
    requires !p.value.Undefined?
    ensures '&' !in QueryPair(p)
    ensures Split(QueryPair(p), '=') == [FormEncode(p.key), FormEncode(QueryValueText(p.value))]
  {
    var k := FormEncode(p.key);
    var v := FormEncode(QueryValueText(p.value));
    FormSafeAvoids(k, '&');
    FormSafeAvoids(v, '&');
    FormSafeAvoids(k, '=');
    FormSafeAvoids(v, '=');
    SplitJoin([k, v], '=');
    assert Join([k, v], '=') == QueryPair(p);
  }

  lemma JoinEmpty(parts: seq<string>, sep: char)
    requires |parts| > 0 && parts[0] != ""
    ensures Join(parts, sep) != ""
  {
    if |parts| > 1 {
      assert Join(parts, sep) == parts[0] + [sep] + Join(parts[1..], sep);
    }
  }

  /** Every serialized pair splits back into its encoded key and value. */
  lemma QueryPairsShape(defined: seq<QueryParam>)
    requires forall i :: 0 <= i < |defined| ==> !defined[i].value.Undefined?
    ensures forall i :: 0 <= i < |defined| ==> '&' !in QueryPairs(defined)[i]
    ensures forall i :: 0 <= i < |defined| ==>
              Split(QueryPairs(defined)[i], '=')
              == [FormEncode(defined[i].key), FormEncode(QueryValueText(defined[i].value))]
  {
    forall i | 0 <= i < |defined|
      ensures '&' !in QueryPairs(defined)[i]
      ensures Split(QueryPairs(defined)[i], '=')
              == [FormEncode(defined[i].key), FormEncode(QueryValueText(defined[i].value))]
    {
      QueryPairShape(defined[i]);
    }
  }

  /** With at least one pair, the query is non-empty and splits back on `&`. */
  lemma QueryOfPairs(defined: seq<QueryParam>)
    requires forall i :: 0 <= i < |defined| ==> !defined[i].value.Undefined?
    requires |defined| > 0
    ensures Join(QueryPairs(defined), '&') != ""
    ensures Split(Join(QueryPairs(defined), '&'), '&') == QueryPairs(defined)
  {
    var pairs := QueryPairs(defined);
    QueryPairsShape(defined);
    assert pairs[0] == QueryPair(defined[0]);
    assert pairs[0] != "";
    JoinEmpty(pairs, '&');
    SplitJoin(pairs, '&');
  }

  /** `PathWith` lists the given parameters, one `key=value` pair each, in
      order, after a `?`; without any, no `?` is added. */
  lemma PathWithLists(defined: seq<QueryParam>)
    requires forall i :: 0 <= i < |defined| ==> !defined[i].value.Undefined?
    ensures |defined| == 0 <==> PathWith(defined) == "/auctions"
    ensures |defined| > 0 ==>
              && PathWith(defined)[..|"/auctions?"|] == "/auctions?"
              && Split(PathWith(defined)[|"/auctions?"|..], '&') == QueryPairs(defined)
  {
    var query := Join(QueryPairs(defined), '&');
    if |defined| > 0 {
      QueryOfPairs(defined);
      assert PathWith(defined) == "/auctions?" + query;
      assert PathWith(defined)[|"/auctions?"|..] == query;
    } else {
      assert query == "";
    }
  }

  /** The query string lists exactly the defined parameters, one `key=value`
      pair each, in order; without any, no `?` is added. */
  lemma AuctionsPathLists(params: Option<seq<QueryParam>>)
    ensures var defined := if params.Some? then DefinedParams(params.value) else [];
      && (|defined| == 0 <==> AuctionsPath(params) == "/auctions")
      && (|defined| > 0 ==>
            var query := AuctionsPath(params)[|"/auctions?"|..];
            && AuctionsPath(params)[..|"/auctions?"|] == "/auctions?"
            && Split(query, '&') == QueryPairs(defined)
            && forall i :: 0 <= i < |defined| ==>
                 Split(QueryPairs(defined)[i], '=')
                 == [FormEncode(defined[i].key), FormEncode(QueryValueText(defined[i].value))])
  {
    var defined := if params.Some? then DefinedParams(params.value) else [];
    assert AuctionsPath(params) == PathWith(defined);
    PathWithLists(defined);
    QueryPairsShape(defined);
  }

  // ---------------------------------------------------------------------
  // Wallet login

  const MissingParamsMessage: string := "Missing required authentication parameters"
  const InvalidTokenMessage: string := "Server returned invalid token data"
  /** The `TypeError` thrown while logging a token that is truthy but not a
      string (V8's wording); the login's `catch` turns it into a failure. */
  const TokenNotStringMessage: string := "response.data.token.substring is not a function"

  datatype LoginOutcome = LoginOutcome(requestSent: bool, response: ApiResponse)

  /** `auth.walletLogin(address, signature, message)`, given the response
      `apiRequest` produced for `/auth/wallet-login` if it is sent. */
  function WalletLogin(address: string, signature: string, message: string, reply: ApiResponse): (r: LoginOutcome)
    ensures !r.requestSent <==> address == "" || signature == "" || message == ""
    ensures !r.requestSent ==> r.response == Failure(JString(MissingParamsMessage), None)
    ensures r.requestSent && reply.Failure? ==> r.response == reply
    ensures r.response.Success? ==> r.requestSent && r.response == reply
    ensures r.response.Success? && Truthy(r.response.data) ==>
              exists t :: t != "" && Field(r.response.data, "token") == Some(JString(t))
    ensures r.requestSent && reply.Success? && Truthy(reply.data) && !TruthyField(Field(reply.data, "token")) ==>
              r.response == Failure(JString(InvalidTokenMessage), None)
  {
    if address == "" || signature == "" || message == "" then
      LoginOutcome(false, Failure(JString(MissingParamsMessage), None))
    else
      LoginOutcome(true,
        if reply.Failure? || !Truthy(reply.data) then reply
        else
          var token := Field(reply.data, "token");
          if !TruthyField(token) then Failure(JString(InvalidTokenMessage), None)
          else if token.value.JString? then reply
          else Failure(JString(TokenNotStringMessage), None))
  }
}

=== FILE: auction_card.dfy ===
/** The auction card of `AuctionCard.tsx`: whether the auction has ended,
    the hours left, the labels that follow from that, and whether the image
    is a placeholder drawn with a plain `img`. One instant `now` stands for
    the clock; prices are displayed as given. */
module AuctionCard {
  import opened JsText
  import opened JsNumber
  import opened JsValue

  const HourMs: int := 3600000
  const PlaceholderHost: string := "placehold.co"

  /** The props of the card. `endTime` is a `Date`: milliseconds since the
      epoch, or `None` for an Invalid Date, whose time value is NaN. */
  datatype CardAuction = CardAuction(id: string, title: string, image: string, currentBid: real,
                                     endTime: Option<int>, creator: string)

  /** `endTime < new Date()`: a comparison with NaN is false, so an
      Invalid Date never counts as ended. */
  predicate IsEnded(a: CardAuction, now: int) {
    a.endTime.Some? && a.endTime.value < now
  }

  /** Whole hours left, `Math.floor((endTime - now) / 3600000)`, for an
      auction with a valid end time that has not ended. */
  function HoursLeft(a: CardAuction, now: int): (h: nat)
    requires a.endTime.Some? && !IsEnded(a, now)
    ensures h * HourMs <= a.endTime.value - now < (h + 1) * HourMs
  {
    (a.endTime.value - now) / HourMs
  }

  /** The text `${NaN}h` for an Invalid Date. */
  const NaNHours: string := "NaNh"

  /** The time-left text: `"<hours>h"`, `"Ended"`, or `"NaNh"` when the
      end time is an Invalid Date. */
  function TimeLeft(a: CardAuction, now: int): (t: string)
    ensures IsEnded(a, now) ==> t == "Ended"
    ensures a.endTime.None? ==> t == NaNHours
    ensures a.endTime.Some? && !IsEnded(a, now) ==>
              && |t| >= 2 && t[|t| - 1] == 'h'
              && (forall k :: 0 <= k < |t| - 1 ==> IsDigit(t[k]))
    ensures t == NaNHours <==> a.endTime.None?
  {
    if IsEnded(a, now) then "Ended"
    else if a.endTime.None? then NaNHours
    else
      var t := NatToString(HoursLeft(a, now)) + "h";
      assert IsDigit(t[0]) && !IsDigit(NaNHours[0]);
      t
  }

  /** The hours can be read back from the text. */
  lemma TimeLeftRoundTrip(a: CardAuction, now: int)
    requires a.endTime.Some? && !IsEnded(a, now)
    ensures ParseDigits(TimeLeft(a, now)[..|TimeLeft(a, now)| - 1]) == HoursLeft(a, now)
  {
    var h := HoursLeft(a, now);
    assert TimeLeft(a, now)[..|TimeLeft(a, now)| - 1] == NatToString(h);
    NatToStringRoundTrip(h);
  }

  /** Time left only shrinks as the clock advances. */
  lemma HoursLeftShrinks(a: CardAuction, earlier: int, later: int)
    requires earlier <= later && a.endTime.Some? && !IsEnded(a, later)
    ensures HoursLeft(a, later) <= HoursLeft(a, earlier)
  {
  }

  /** `image.includes('placehold.co')`. */
  predicate IsPlaceholder(a: CardAuction) {
    Includes(a.image, PlaceholderHost)
  }

  /** The labels of the card. */
  datatype CardView = CardView(
    plainImage: bool,
    caption: string,
    timeLeft: string,
    buttonLabel: string,
    link: string)

  function Card(a: CardAuction, now: int): (v: CardView)
    ensures v.caption == "Ended" <==> IsEnded(a, now)
    ensures v.caption == "Time Left" <==> !IsEnded(a, now)
    ensures v.buttonLabel == "View Details" <==> IsEnded(a, now)
    ensures v.buttonLabel == "Place Bid" <==> !IsEnded(a, now)
    ensures v.timeLeft == "Ended" <==> IsEnded(a, now)
    ensures v.timeLeft == NaNHours <==> a.endTime.None?
    ensures v.plainImage <==> exists i :: OccursAt(a.image, PlaceholderHost, i)
    ensures v.link == "/auctions/" + a.id
  {
    var ended := IsEnded(a, now);
    CardView(IsPlaceholder(a), if ended then "Ended" else "Time Left", TimeLeft(a, now),
             if ended then "View Details" else "Place Bid", "/auctions/" + a.id)
  }
}

=== FILE: auction_list.dfy ===
/** The compact auction list of `AuctionList.tsx`: which auctions are
    shown, the NFT details fetched for them, and the text each row derives
    from its auction. Date and price formatting (`formatDistanceToNow`,
    `Intl.NumberFormat`) are left to the renderer: a row carries the end
    time and the price as numbers. */
module AuctionList {
  import opened JsText
  import opened JsValue
  import ApiClient

  const DefaultSkeletonRows: nat := 5
  const EmptyMessage: string := "No auctions found"

  // ---------------------------------------------------------------------
  // Which auctions are shown

  /** `xs.slice(0, end)`: a negative end counts back from the length, and
      the end is clamped to the list. */
  function SlicePrefix<T>(xs: seq<T>, end: int): (r: seq<T>)
    ensures end >= 0 ==> |r| == (if end < |xs| then end else |xs|)
    ensures end < 0 ==> |r| == (if |xs| + end > 0 then |xs| + end else 0)
    ensures r == xs[..|r|]
  {
    var n := if end < 0 then (if |xs| + end > 0 then |xs| + end else 0)
             else if end < |xs| then end else |xs|;
    xs[..n]
  }

  /** `limit ? auctions.slice(0, limit) : auctions`; `None` is an absent
      limit. */
  function DisplayAuctions(auctions: seq<ApiClient.Auction>, limit: Option<int>): (r: seq<ApiClient.Auction>)
    ensures limit.None? || limit.value == 0 ==> r == auctions
    ensures limit.Some? && limit.value > 0 ==>
              |r| == (if limit.value < |auctions| then limit.value else |auctions|)
    ensures |r| <= |auctions| && r == auctions[..|r|]
  {
    if limit.Some? && limit.value != 0 then SlicePrefix(auctions, limit.value) else auctions
  }

  /** A positive limit shows exactly the first `limit` auctions when there
      are that many. */
  lemma PositiveLimitTakesPrefix(auctions: seq<ApiClient.Auction>, limit: int)
    requires 0 < limit <= |auctions|
    ensures DisplayAuctions(auctions, Some(limit)) == auctions[..limit]
  {
  }

  /** `Array(n)` accepts a length only when it is an array length, below
      2^32 (section 23.1.1.1 of ECMA-262). */
  const ArrayLengthBound: int := 0x1_0000_0000

  /** The number of skeleton rows while loading, `limit || 5`. A count that
      is negative or not below 2^32 makes `Array(n)` throw a `RangeError`,
      which is `None`. */
  function SkeletonCount(limit: Option<int>): (r: Option<nat>)
    ensures limit.None? || limit.value == 0 ==> r == Some(DefaultSkeletonRows)
    ensures limit.Some? && 0 < limit.value < ArrayLengthBound ==> r == Some(limit.value)
    ensures limit.Some? && (limit.value < 0 || limit.value >= ArrayLengthBound) ==> r == None
  {
    var n := if limit.Some? && limit.value != 0 then limit.value else DefaultSkeletonRows;
    if n < 0 || n >= ArrayLengthBound then None else Some(n)
  }

  /** While loading with a positive limit, there is one skeleton row per
      row the list will show once a full page has arrived. */
  lemma SkeletonMatchesPage(auctions: seq<ApiClient.Auction>, limit: int)
    requires 0 < limit <= |auctions| && limit < ArrayLengthBound
    ensures SkeletonCount(Some(limit)) == Some(|DisplayAuctions(auctions, Some(limit))|)
  {
  }

  // ---------------------------------------------------------------------
  // NFT details

  /** The details map built by the effect: for each auction in order, the
      data of a successful `getNFT(nft_id)` is stored under its NFT id, so
      a later auction with the same NFT id overwrites an earlier one.
      `replies[k]` answers the request for `auctions[k]`. */
  function CollectDetails(auctions: seq<ApiClient.Auction>, replies: seq<ApiClient.ApiResponse>): (d: map<string, Json>)
    requires |replies| == |auctions|
    ensures forall id :: id in d <==>
              exists k :: 0 <= k < |auctions| && auctions[k].nftId == id && replies[k].Success?
    decreases |auctions|
  {
    if |auctions| == 0 then map[]
    else
      var n := |auctions| - 1;
      var d := CollectDetails(auctions[..n], replies[..n]);
      assert forall k :: 0 <= k < n ==> auctions[..n][k] == auctions[k] && replies[..n][k] == replies[k];
      if replies[n].Success? then d[auctions[n].nftId := replies[n].data] else d
  }

  /** The entry for an NFT id is the data of the last successful request
      for it. */
  lemma {:induction false} CollectDetailsKeepsLast(auctions: seq<ApiClient.Auction>, replies: seq<ApiClient.ApiResponse>, k: nat)
    requires |replies| == |auctions|
    requires k < |auctions| && replies[k].Success?
    requires forall j :: k < j < |auctions| ==> !(auctions[j].nftId == auctions[k].nftId && replies[j].Success?)
    ensures auctions[k].nftId in CollectDetails(auctions, replies)
    ensures CollectDetails(auctions, replies)[auctions[k].nftId] == replies[k].data
    decreases |auctions|
  {
    var n := |auctions| - 1;
    if k < n {
      assert !(auctions[n].nftId == auctions[k].nftId && replies[n].Success?);
      CollectDetailsKeepsLast(auctions[..n], replies[..n], k);
    }
  }

  /** The details are rebuilt only when there are auctions; an empty list
      leaves the previous map in place. */
  function RefreshDetails(previous: map<string, Json>, auctions: seq<ApiClient.Auction>, replies: seq<ApiClient.ApiResponse>): (d: map<string, Json>)
    requires |replies| == |auctions|
    ensures |auctions| == 0 ==> d == previous
    ensures |auctions| > 0 ==> d == CollectDetails(auctions, replies)
  {
    if |auctions| == 0 then previous else CollectDetails(auctions, replies)
  }

  // ---------------------------------------------------------------------
  // One row

  /** `nft?.title || auction.title || "Auction #" + auction_id.substring(0, 8)`.
      The NFT's title is shown as it came from the backend. */
  function RowTitle(a: ApiClient.Auction, nft: Option<Json>): (t: Json)
    ensures nft.Some? && TruthyField(Field(nft.value, "title")) ==> Some(t) == Field(nft.value, "title")
    ensures !(nft.Some? && TruthyField(Field(nft.value, "title"))) && a.title != "" ==> t == JString(a.title)
    ensures !(nft.Some? && TruthyField(Field(nft.value, "title"))) && a.title == "" ==>
              && t.JString? && 9 <= |t.s| <= 17 && t.s[..9] == "Auction #"
              && |t.s| - 9 == (if |a.auctionId| < 8 then |a.auctionId| else 8)
              && t.s[9..] == a.auctionId[..|t.s| - 9]
  {
    if nft.Some? && TruthyField(Field(nft.value, "title")) then Field(nft.value, "title").value
    else if a.title != "" then JString(a.title)
    else JString("Auction #" + Take(a.auctionId, 8))
  }

  /** The seller column: the first five and the last five characters. */
  function SellerAbbrev(address: string): (r: string)
    ensures r == Take(address, 5) + "..." + TakeLast(address, 5)
    ensures |address| >= 10 ==> |r| == 13 && r[..5] == address[..5] && r[8..] == address[|address| - 5..]
  {
    Take(address, 5) + "..." + TakeLast(address, 5)
  }

  /** `current_bid` counts when it is present and not zero. */
  predicate HasBid(a: ApiClient.Auction) {
    a.currentBid.Some? && a.currentBid.value != 0.0
  }

  /** The price shown: the current bid when there is one, else the start
      price. */
  function ShownPrice(a: ApiClient.Auction): (p: real)
    ensures HasBid(a) ==> p == a.currentBid.value
    ensures !HasBid(a) ==> p == a.startPrice
  {
    if HasBid(a) then a.currentBid.value else a.startPrice
  }

  function PriceLabel(a: ApiClient.Auction): (l: string)
    ensures l == "Current bid" <==> HasBid(a)
    ensures l == "Starting price" <==> !HasBid(a)
  {
    if HasBid(a) then "Current bid" else "Starting price"
  }

  function StatusWord(a: ApiClient.Auction): (w: string)
    ensures w == "Ends" <==> a.status == ApiClient.Active
    ensures w == "Ended" <==> a.status != ApiClient.Active
  {
    if a.status == ApiClient.Active then "Ends" else "Ended"
  }

  /** What a row shows: link target id, image, title, seller, status word
      with the end time, price and its label. */
  datatype Row = Row(
    auctionId: string,
    image: Option<Json>,
    title: Json,
    seller: string,
    statusWord: string,
    endTime: int,
    price: real,
    priceLabel: string)

  function RowFor(a: ApiClient.Auction, details: map<string, Json>): (r: Row)
    ensures r.auctionId == a.auctionId && r.endTime == a.endTime
    ensures r.price == ShownPrice(a) && r.priceLabel == PriceLabel(a) && r.statusWord == StatusWord(a)
    ensures r.title == RowTitle(a, if a.nftId in details then Some(details[a.nftId]) else None)
    ensures r.image.Some? <==> a.nftId in details && TruthyField(Field(details[a.nftId], "image_url"))
    ensures r.image.Some? ==> r.image == Field(details[a.nftId], "image_url")
  {
    var nft := if a.nftId in details then Some(details[a.nftId]) else None;
    var image := if nft.Some? && TruthyField(Field(nft.value, "image_url")) then Field(nft.value, "image_url") else None;
    Row(a.auctionId, image, RowTitle(a, nft), SellerAbbrev(a.sellerAddress), StatusWord(a), a.endTime,
        ShownPrice(a), PriceLabel(a))
  }

  /** What the component renders. `RenderFailed` is the `RangeError` of a
      skeleton count that is negative or 2^32 or more. */
  datatype View = Skeletons(count: nat) | RenderFailed | Empty(message: string) | Rows(rows: seq<Row>)

  function Render(auctions: seq<ApiClient.Auction>, isLoading: bool, limit: Option<int>, details: map<string, Json>): (v: View)
    ensures isLoading ==> v.Skeletons? || v.RenderFailed?
    ensures isLoading && SkeletonCount(limit).Some? ==> v == Skeletons(SkeletonCount(limit).value)
    ensures !isLoading ==> (v.Empty? <==> |DisplayAuctions(auctions, limit)| == 0)
    ensures v.Empty? ==> v.message == EmptyMessage
    ensures v.Rows? ==> |v.rows| == |DisplayAuctions(auctions, limit)|
                        && forall k :: 0 <= k < |v.rows| ==>
                             v.rows[k] == RowFor(DisplayAuctions(auctions, limit)[k], details)
  {
    if isLoading then
      var n := SkeletonCount(limit);
      if n.None? then RenderFailed else Skeletons(n.value)
    else
      var shown := DisplayAuctions(auctions, limit);
      if |shown| == 0 then Empty(EmptyMessage)
      else Rows(seq(|shown|, k requires 0 <= k < |shown| => RowFor(shown[k], details)))
  }
}

=== FILE: auth_session.dfy ===
/** The expiry-gated session of `lib/auth.ts`: a token, the user serialized
    as JSON and an expiry date, kept under three storage keys. The clock is
    an input `now` in milliseconds, and `new Date(s)` is an input parser
    that gives `None` for an unparseable date (an Invalid Date). */
module AuthSession {
  import opened JsValue
  import opened Storage
  import ApiClient

  const UserKey: string := "user"
  const ExpiresAtKey: string := "expires_at"

  /** The three keys a session occupies. */
  function SessionKeys(): set<string> {
    {ApiClient.AuthTokenKey, UserKey, ExpiresAtKey}
  }

  /** `new Date(s).getTime()`, or `None` for an Invalid Date. */
  type DateParser = string -> Option<int>

  /** What the backend returns on login. */
  datatype AuthToken = AuthToken(token: string, expiresAt: string, user: Json)

  /** The result of a read that may also clear an expired session. */
  datatype Checked<T> = Checked(value: T, store: Store)

  /** `setAuth`: stores the token as given, the user as JSON and the expiry;
      no other key changes. */
  function SetAuth(st: Store, a: AuthToken): (r: Store)
    ensures ApiClient.AuthTokenKey in r && r[ApiClient.AuthTokenKey] == a.token
    ensures UserKey in r && r[UserKey] == Stringify(a.user)
    ensures ExpiresAtKey in r && r[ExpiresAtKey] == a.expiresAt
    ensures SameExcept(st, r, SessionKeys())
  {
    st[ApiClient.AuthTokenKey := a.token][UserKey := Stringify(a.user)][ExpiresAtKey := a.expiresAt]
  }

  /** `clearAuth`: removes exactly the three session keys. */
  function ClearAuth(st: Store): (r: Store)
    ensures SessionKeys() !! r.Keys
    ensures SameExcept(st, r, SessionKeys())
  {
    st - SessionKeys()
  }

  /** Both a non-empty token and a non-empty expiry are stored. */
  predicate HasSession(st: Store) {
    && ApiClient.AuthTokenKey in st && st[ApiClient.AuthTokenKey] != ""
    && ExpiresAtKey in st && st[ExpiresAtKey] != ""
  }

  /** The stored expiry parses to an instant before `now`. An expiry that
      does not parse never counts as passed, since every comparison with an
      Invalid Date is false. */
  predicate Expired(st: Store, now: int, parse: DateParser)
    requires ExpiresAtKey in st
  {
    parse(st[ExpiresAtKey]).Some? && parse(st[ExpiresAtKey]).value < now
  }

  /** `isAuthenticated`: false without a token or expiry; false, with the
      session cleared, once the expiry has passed; true otherwise. */
  function IsAuthenticated(st: Store, now: int, parse: DateParser): (r: Checked<bool>)
    ensures !HasSession(st) ==> r == Checked(false, st)
    ensures HasSession(st) && Expired(st, now, parse) ==> !r.value && r.store == ClearAuth(st)
    ensures r.value <==> HasSession(st) && !Expired(st, now, parse)
    ensures r.value ==> r.store == st
  {
    if !HasSession(st) then Checked(false, st)
    else if Expired(st, now, parse) then Checked(false, ClearAuth(st))
    else Checked(true, st)
  }

  /** `getCurrentUser`: the stored user JSON while the session is valid.
      Parsing that JSON is left to the caller. */
  function GetCurrentUser(st: Store, now: int, parse: DateParser): (r: Checked<Option<string>>)
    ensures r.store == IsAuthenticated(st, now, parse).store
    ensures !IsAuthenticated(st, now, parse).value ==> r.value == None
    ensures r.value.Some? ==> UserKey in st && r.value.value == st[UserKey] && r.value.value != ""
  {
    var auth := IsAuthenticated(st, now, parse);
    if !auth.value then Checked(None, auth.store)
    else if UserKey !in st || st[UserKey] == "" then Checked(None, st)
    else Checked(Some(st[UserKey]), st)
  }

  /** `getAuthToken` of the session module: the stored token, untrimmed,
      while the session is valid. */
  function GetAuthToken(st: Store, now: int, parse: DateParser): (r: Checked<Option<string>>)
    ensures r.store == IsAuthenticated(st, now, parse).store
    ensures r.value.Some? <==> IsAuthenticated(st, now, parse).value
    ensures r.value.Some? ==> r.value.value == st[ApiClient.AuthTokenKey]
  {
    var auth := IsAuthenticated(st, now, parse);
    if !auth.value then Checked(None, auth.store) else Checked(Some(st[ApiClient.AuthTokenKey]), st)
  }

  /** `updateCurrentUser`: rewrites the user entry and nothing else. */
  function UpdateCurrentUser(st: Store, user: Json): (r: Store)
    ensures UserKey in r && r[UserKey] == Stringify(user)
    ensures SameExcept(st, r, {UserKey})
  {
    st[UserKey := Stringify(user)]
  }

  /** A session stored by `setAuth` is valid until its expiry: the token and
      user read back are the ones stored, and nothing is cleared. */
  lemma SetAuthThenValid(st: Store, a: AuthToken, now: int, parse: DateParser)
    requires a.token != "" && a.expiresAt != ""
    requires parse(a.expiresAt).Some? && now <= parse(a.expiresAt).value
    ensures IsAuthenticated(SetAuth(st, a), now, parse) == Checked(true, SetAuth(st, a))
    ensures GetAuthToken(SetAuth(st, a), now, parse).value == Some(a.token)
    ensures GetCurrentUser(SetAuth(st, a), now, parse).value == Some(Stringify(a.user))
  {
  }

  /** Once the expiry has passed, the session reads as absent and all three
      keys are gone from storage. */
  lemma SetAuthThenExpired(st: Store, a: AuthToken, now: int, parse: DateParser)
    requires a.token != "" && a.expiresAt != ""
    requires parse(a.expiresAt).Some? && parse(a.expiresAt).value < now
    ensures IsAuthenticated(SetAuth(st, a), now, parse) == Checked(false, ClearAuth(SetAuth(st, a)))
    ensures GetAuthToken(SetAuth(st, a), now, parse).value == None
    ensures SessionKeys() !! IsAuthenticated(SetAuth(st, a), now, parse).store.Keys
  {
  }

  /** Validity only runs out: a session valid at `later` was valid at every
      earlier instant. */
  lemma ValidityIsMonotone(st: Store, earlier: int, later: int, parse: DateParser)
    requires earlier <= later
    ensures IsAuthenticated(st, later, parse).value ==> IsAuthenticated(st, earlier, parse).value
  {
  }

  /** After a check, the REST client's token view and the session agree on
      an expired session: both report it absent. */
  lemma ExpiredSessionInvisibleToClient(st: Store, now: int, parse: DateParser)
    requires HasSession(st) && Expired(st, now, parse)
    ensures !ApiClient.IsAuthenticated(IsAuthenticated(st, now, parse).store)
  {
  }
}

=== FILE: create_auction_card.dfy ===
/** The submit handler of `CreateAuctionCard.tsx`: validation of the
    starting bid and the duration, the satoshi price and end time derived
    from them, the request sent to create the auction, and what the form
    does with the answer. `parseFloat` and `parseInt` are taken as already
    applied (`None` stands for NaN); the clock, the random PSBT placeholder
    and the backend's answer are inputs. */
module CreateAuctionCard {
  import opened JsText
  import opened JsValue
  import ApiClient

  const SatsPerBtc: int := 100000000
  const HourMs: int := 3600000
  const MinHours: int := 1
  const MaxHours: int := 168

  const InvalidBidMessage: string := "Please enter a valid starting bid"
  const InvalidDurationMessage: string := "Duration must be between 1 and 168 hours"
  const CreateFailedMessage: string := "Failed to create auction"
  const FallbackToast: string := "Failed to create auction. Please try again."

  /** The NFT the card is for; `id` is optional. */
  datatype Nft = Nft(inscriptionId: string, id: Option<string>)

  /** The form after parsing: the bid in BTC and the duration in hours. */
  datatype Form = Form(startingBid: Option<real>, durationHours: Option<int>)

  /** The body of `api.auction.create`. */
  datatype CreateRequest = CreateRequest(nftId: string, startPrice: int, startTime: int, endTime: int, psbt: string)

  /** What one submit did: the request it sent, the error it toasted, and
      whether the dialog is open, `onSuccess` ran and the form is loading. */
  datatype SubmitOutcome = SubmitOutcome(
    request: Option<CreateRequest>,
    errorToast: Option<string>,
    dialogOpen: bool,
    onSuccessCalled: bool,
    loading: bool)

  predicate ValidBid(bid: Option<real>) {
    bid.Some? && bid.value > 0.0
  }

  predicate ValidDuration(hours: Option<int>) {
    hours.Some? && MinHours <= hours.value <= MaxHours
  }

  /** The first validation message that applies: the bid is checked before
      the duration. */
  function ValidationError(f: Form): (r: Option<string>)
    ensures r.None? <==> ValidBid(f.startingBid) && ValidDuration(f.durationHours)
    ensures !ValidBid(f.startingBid) ==> r == Some(InvalidBidMessage)
    ensures ValidBid(f.startingBid) && !ValidDuration(f.durationHours) ==> r == Some(InvalidDurationMessage)
  {
    if !ValidBid(f.startingBid) then Some(InvalidBidMessage)
    else if !ValidDuration(f.durationHours) then Some(InvalidDurationMessage)
    else None
  }

  /** `Math.floor(btc * 100000000)`: the largest whole number of satoshis
      not above the bid. */
  function ToSatoshis(btc: real): (sats: int)
    ensures sats as real <= btc * SatsPerBtc as real < sats as real + 1.0
    ensures btc > 0.0 ==> sats >= 0
  {
    (btc * SatsPerBtc as real).Floor
  }

  /** The end of an auction that starts at `start` and lasts `hours`. */
  function EndTime(start: int, hours: int): (end: int)
    ensures hours >= MinHours ==> end > start
  {
    start + hours * HourMs
  }

  /** `nft.id || nft.inscription_id`. */
  function ChosenNftId(nft: Nft): (r: string)
    ensures nft.id.Some? && nft.id.value != "" ==> r == nft.id.value
    ensures !(nft.id.Some? && nft.id.value != "") ==> r == nft.inscriptionId
  {
    if nft.id.Some? && nft.id.value != "" then nft.id.value else nft.inscriptionId
  }

  /** The request built for a form that passed validation. */
  function BuildRequest(f: Form, nft: Nft, now: int, psbt: string): (r: CreateRequest)
    requires ValidationError(f).None?
    ensures r.nftId == ChosenNftId(nft) && r.psbt == psbt && r.startTime == now
    ensures r.startPrice == ToSatoshis(f.startingBid.value) && r.startPrice >= 0
    ensures r.endTime > r.startTime && r.endTime - r.startTime == f.durationHours.value * HourMs
  {
    CreateRequest(ChosenNftId(nft), ToSatoshis(f.startingBid.value), now, EndTime(now, f.durationHours.value), psbt)
  }

  /** `String(v)` for the value an error is built from. Inside an array,
      `null` becomes the empty string. */
  function ErrorString(v: Json): string {
    match v
    case JObject(_) => "[object Object]"
    case JArray(items) =>
      Join(seq(|items|, k requires 0 <= k < |items| =>
        if items[k].JNull? then "" else ErrorString(items[k])), ',')
    case _ => PrimitiveToString(v)
  }

  /** The text of the error toast for a failure response:
      `new Error(response.error || 'Failed to create auction')`, then
      `error.message || <fallback>`. */
  function FailureToast(e: Json): (t: string)
    ensures e.JString? && e.s != "" ==> t == e.s
    ensures !Truthy(e) ==> t == CreateFailedMessage
    ensures t != ""
  {
    var msg := if Truthy(e) then ErrorString(e) else CreateFailedMessage;
    if msg != "" then msg else FallbackToast
  }

  /** `handleSubmit`: nothing is sent unless both checks pass; the dialog
      closes when the backend confirms, and `onSuccess` then runs if the
      parent passed one; loading is off at the end whatever happened. */
  function Submit(f: Form, nft: Nft, now: int, psbt: string, dialogOpen: bool, hasOnSuccess: bool,
                  reply: ApiClient.ApiResponse): (r: SubmitOutcome)
    ensures !r.loading
    ensures r.request.Some? <==> ValidationError(f).None?
    ensures r.request.Some? ==> r.request.value == BuildRequest(f, nft, now, psbt)
    ensures ValidationError(f).Some? ==>
              r.errorToast == ValidationError(f) && r.dialogOpen == dialogOpen && !r.onSuccessCalled
    ensures r.onSuccessCalled <==> hasOnSuccess && r.request.Some? && reply.Success?
    ensures r.request.Some? && reply.Success? ==> !r.dialogOpen && r.errorToast == None
    ensures !(r.request.Some? && reply.Success?) ==> r.dialogOpen == dialogOpen && r.errorToast.Some?
    ensures r.request.Some? && reply.Failure? ==> r.errorToast == Some(FailureToast(reply.error))
  {
    var invalid := ValidationError(f);
    if invalid.Some? then SubmitOutcome(None, invalid, dialogOpen, false, false)
    else
      var req := BuildRequest(f, nft, now, psbt);
      match reply
      case Success(_) => SubmitOutcome(Some(req), None, false, hasOnSuccess, false)
      case Failure(e, _) => SubmitOutcome(Some(req), Some(FailureToast(e)), dialogOpen, false, false)
  }

  /** The auction requested lasts exactly the number of hours chosen in
      the form, a whole number of hours between one and a week, and starts
      at the moment of submission. */
  lemma RequestRecoversDuration(f: Form, nft: Nft, now: int, psbt: string, dialogOpen: bool,
                                hasOnSuccess: bool, reply: ApiClient.ApiResponse)
    requires ValidationError(f).None?
    ensures var req := Submit(f, nft, now, psbt, dialogOpen, hasOnSuccess, reply).request.value;
            && req.startTime == now
            && (req.endTime - req.startTime) % HourMs == 0
            && (req.endTime - req.startTime) / HourMs == f.durationHours.value
            && ValidDuration(Some((req.endTime - req.startTime) / HourMs))
  {
    var req := Submit(f, nft, now, psbt, dialogOpen, hasOnSuccess, reply).request.value;
    assert req.endTime - req.startTime == f.durationHours.value * HourMs;
  }

  /** The accepted durations are exactly the whole hours from one hour to
      one week, and each gives an auction of that many hours. */
  lemma AcceptedDurations(bid: real, hours: int, nft: Nft, now: int, psbt: string, hasOnSuccess: bool,
                          reply: ApiClient.ApiResponse)
    requires bid > 0.0
    ensures Submit(Form(Some(bid), Some(hours)), nft, now, psbt, true, hasOnSuccess, reply).request.Some?
            <==> 1 <= hours <= 168
    ensures 1 <= hours <= 168 ==>
              var req := Submit(Form(Some(bid), Some(hours)), nft, now, psbt, true, hasOnSuccess, reply).request.value;
              now + HourMs <= req.endTime <= now + 168 * HourMs
  {
  }
}

=== FILE: home_page.dfy ===
/** The auction feed of the home page (`app/page.tsx`): each fetch of the
    active auctions either lists them, or schedules a retry with a doubling
    delay, or after two retries falls back to three sample auctions with an
    error banner. The listing request's result and the clock are inputs;
    a fetch that rejects is `Threw`. */
module HomePage {
  import opened JsNumber
  import opened JsValue
  import ApiClient

  const MaxRetries: nat := 2
  const FallbackMessage: string := "Using sample data - API connection failed"
  const DayMs: int := 86400000
  const SampleSeller: string := "tb1qnardpcz8ry0xkt4n6w6jnve8vqw2tt7uw24mlg"

  /** The outcome of one `api.auction.getAll` call. */
  datatype FetchResult = Listed(auctions: seq<ApiClient.Auction>) | Refused(error: Json) | Threw

  datatype HomeState = HomeState(
    auctions: seq<ApiClient.Auction>,
    isLoading: bool,
    error: string,
    retryCount: nat)

  const Initial: HomeState := HomeState([], true, "", 0)

  /** The three sample auctions, all active, with times relative to the
      moment `loadedAt` the page module was loaded. */
  function FallbackAuctions(loadedAt: int): (r: seq<ApiClient.Auction>)
    ensures |r| == 3
    ensures forall k :: 0 <= k < |r| ==>
              r[k].status == ApiClient.Active && r[k].startTime < loadedAt < r[k].endTime
  {
    [ ApiClient.Auction("Bitcoin Abstract #01", "1", "1", SampleSeller, 0.01, Some(0.015),
                        loadedAt - DayMs, loadedAt + 3 * DayMs, ApiClient.Active),
      ApiClient.Auction("Satoshi Legacy", "2", "2", SampleSeller, 0.05, Some(0.075),
                        loadedAt - 2 * DayMs, loadedAt + DayMs, ApiClient.Active),
      ApiClient.Auction("Ordinal #123", "3", "3", SampleSeller, 0.02, Some(0.03),
                        loadedAt - 3 * DayMs, loadedAt + 4 * DayMs, ApiClient.Active) ]
  }

  /** The wait before retry number `retryCount + 1`: `2^retryCount` seconds. */
  function RetryDelay(retryCount: nat): (d: nat)
    ensures d >= 1000
  {
    Pow2(retryCount) * 1000
  }

  /** Start of an attempt: loading, banner cleared. */
  function BeginFetch(s: HomeState): (r: HomeState)
    ensures r.isLoading && r.error == ""
    ensures r.auctions == s.auctions && r.retryCount == s.retryCount
  {
    s.(isLoading := true, error := "")
  }

  /** The end of an attempt and the retry timer it schedules, if any. */
  datatype Completion = Completion(state: HomeState, retryAfter: Option<nat>)

  /** The end of an attempt: a listing replaces the auctions; a failure
      schedules a retry while fewer than two retries have run, and otherwise
      installs the sample auctions and the banner. Loading always ends. */
  function CompleteFetch(s: HomeState, loadedAt: int, outcome: FetchResult): (r: Completion)
    ensures !r.state.isLoading && r.state.retryCount == s.retryCount
    ensures outcome.Listed? ==>
              r.state.auctions == outcome.auctions && r.state.error == s.error && r.retryAfter == None
    ensures !outcome.Listed? && s.retryCount < MaxRetries ==>
              && r.retryAfter == Some(RetryDelay(s.retryCount))
              && r.state.auctions == s.auctions && r.state.error == s.error
    ensures !outcome.Listed? && s.retryCount >= MaxRetries ==>
              && r.retryAfter == None
              && r.state.auctions == FallbackAuctions(loadedAt) && r.state.error == FallbackMessage
  {
    var done := s.(isLoading := false);
    match outcome
    case Listed(auctions) => Completion(done.(auctions := auctions), None)
    case _ =>
      if s.retryCount < MaxRetries then Completion(done, Some(RetryDelay(s.retryCount)))
      else Completion(done.(auctions := FallbackAuctions(loadedAt), error := FallbackMessage), None)
  }

  /** One run of `fetchAuctions`: the banner shown afterwards is the
      fallback message exactly when the sample auctions were installed. */
  function Fetch(s: HomeState, loadedAt: int, outcome: FetchResult): (r: Completion)
    ensures !r.state.isLoading && r.state.retryCount == s.retryCount
    ensures r.state.error == FallbackMessage <==> !outcome.Listed? && s.retryCount >= MaxRetries
    ensures r.state.error == "" <==> !(!outcome.Listed? && s.retryCount >= MaxRetries)
    ensures r.retryAfter.Some? <==> !outcome.Listed? && s.retryCount < MaxRetries
  {
    CompleteFetch(BeginFetch(s), loadedAt, outcome)
  }

  /** A rejected request and a failure response lead to the same state. */
  lemma ThrownLikeRefused(s: HomeState, loadedAt: int, e: Json)
    ensures Fetch(s, loadedAt, Threw) == Fetch(s, loadedAt, Refused(e))
  {
  }

  /** A listing clears a banner left by an earlier fallback. */
  lemma ListingClearsBanner(s: HomeState, loadedAt: int, auctions: seq<ApiClient.Auction>)
    ensures Fetch(s, loadedAt, Listed(auctions)).state.error == ""
    ensures Fetch(s, loadedAt, Listed(auctions)).state.auctions == auctions
  {
  }

  /** The retry delays are one and then two seconds. */
  lemma RetryDelays()
    ensures RetryDelay(0) == 1000 && RetryDelay(1) == 2000
  {
    assert Pow2(1) == 2;
  }

  /** The retry timer fires: the count goes up, which runs the effect, so a
      fetch starts. */
  function RetryTimerFired(s: HomeState): (r: HomeState)
    ensures r.retryCount == s.retryCount + 1
    ensures r.auctions == s.auctions && r.error == s.error && r.isLoading == s.isLoading
  {
    s.(retryCount := s.retryCount + 1)
  }

  /** `handleRetry`: the count goes back to zero. The effect depends on the
      count only, so a new fetch starts exactly when the count was not zero
      already. */
  function HandleRetry(s: HomeState): (r: (HomeState, bool))
    ensures r.0 == s.(retryCount := 0)
    ensures r.1 <==> s.retryCount != 0
  {
    (s.(retryCount := 0), s.retryCount != 0)
  }

  /** After the fallback, the retry button starts the cycle afresh: a new
      fetch with a count of zero, so two more retries are available. */
  lemma RetryAfterFallbackRestarts(s: HomeState, loadedAt: int, outcome: FetchResult)
    requires s.retryCount == MaxRetries
    ensures var c := Fetch(s, loadedAt, outcome);
            outcome.Listed? || c.state.error == FallbackMessage
    ensures var c := Fetch(s, loadedAt, outcome);
            HandleRetry(c.state).1 && HandleRetry(c.state).0.retryCount == 0
  {
  }

  /** The page from mount until it settles: fetch, and whenever a retry is
      scheduled let its timer fire and fetch again. `answers(k)` is the
      outcome of fetch number `k`. Returns the settled state, the number of
      fetches and the delays waited. */
  method LoadAuctions(loadedAt: int, answers: nat -> FetchResult) returns (s: HomeState, fetches: nat, delays: seq<nat>)
    ensures 1 <= fetches <= MaxRetries + 1
    ensures !s.isLoading && s.retryCount == fetches - 1
    ensures delays == [1000, 2000][..fetches - 1]
    ensures forall k :: 0 <= k < fetches - 1 ==> !answers(k).Listed?
    ensures answers(fetches - 1).Listed? ==> s.auctions == answers(fetches - 1).auctions && s.error == ""
    ensures !answers(fetches - 1).Listed? ==>
              fetches == MaxRetries + 1 && s.auctions == FallbackAuctions(loadedAt) && s.error == FallbackMessage
  {
    RetryDelays();
    var c := Fetch(Initial, loadedAt, answers(0));
    fetches := 1;
    delays := [];
    while c.retryAfter.Some?
      invariant 1 <= fetches <= MaxRetries + 1
      invariant c.state.retryCount == fetches - 1
      invariant delays == [1000, 2000][..fetches - 1]
      invariant forall k :: 0 <= k < fetches - 1 ==> !answers(k).Listed?
      invariant !c.state.isLoading
      invariant c.retryAfter.Some? ==> !answers(fetches - 1).Listed? && fetches <= MaxRetries
                                       && c.retryAfter.value == RetryDelay(fetches - 1)
      invariant c.retryAfter.None? && answers(fetches - 1).Listed? ==>
                  c.state.auctions == answers(fetches - 1).auctions && c.state.error == ""
      invariant c.retryAfter.None? && !answers(fetches - 1).Listed? ==>
                  fetches == MaxRetries + 1 && c.state.auctions == FallbackAuctions(loadedAt)
                  && c.state.error == FallbackMessage
      decreases MaxRetries + 1 - fetches
    {
      delays := delays + [c.retryAfter.value];
      var fired := RetryTimerFired(c.state);
      c := Fetch(fired, loadedAt, answers(fetches));
      fetches := fetches + 1;
    }
    s := c.state;
  }
}

=== FILE: js_number.dfy ===
/** The integer arithmetic and number formatting the client performs:
    `Math.pow(2, n)`, `Math.min`, and `Number.prototype.toString()` for
    integers. JavaScript numbers are doubles; the model keeps to integers,
    where those operations are exact. */
module JsNumber {

  /** `Math.pow(2, n)` for a natural exponent. */
  function Pow2(n: nat): (r: nat)
    ensures r >= 1
  {
    if n == 0 then 1 else 2 * Pow2(n - 1)
  }

  /** Powers of two grow with the exponent. */
  lemma {:induction false} Pow2Monotone(m: nat, n: nat)
    requires m <= n
    ensures Pow2(m) <= Pow2(n)
    decreases n - m
  {
    if m < n {
      Pow2Monotone(m, n - 1);
      assert Pow2(n) == 2 * Pow2(n - 1);
    }
  }

  function Min(a: int, b: int): (r: int)
    ensures r <= a && r <= b
    ensures r == a || r == b
  {
    if a <= b then a else b
  }

  predicate IsDigit(c: char) {
    '0' <= c <= '9'
  }

  function DigitChar(d: nat): (c: char)
    requires d < 10
    ensures IsDigit(c)
  {
    ('0' as int + d) as char
  }

  function DigitValue(c: char): (d: nat)
    requires IsDigit(c)
    ensures d < 10
  {
    c as int - '0' as int
  }

  /** Decimal rendering of a natural number, most significant digit first. */
  function NatToString(n: nat): (s: string)
    ensures |s| > 0
    ensures forall i :: 0 <= i < |s| ==> IsDigit(s[i])
    ensures |s| > 1 ==> s[0] != '0'
  {
    if n < 10 then [DigitChar(n)] else NatToString(n / 10) + [DigitChar(n % 10)]
  }

  /** The value of a string of decimal digits. */
  function ParseDigits(s: string): nat
    requires forall i :: 0 <= i < |s| ==> IsDigit(s[i])
  {
    if |s| == 0 then 0 else 10 * ParseDigits(s[..|s| - 1]) + DigitValue(s[|s| - 1])
  }

  /** Reading back the decimal rendering gives the number. */
  lemma {:induction false} NatToStringRoundTrip(n: nat)
    ensures ParseDigits(NatToString(n)) == n
  {
    var s := NatToString(n);
    if n >= 10 {
      NatToStringRoundTrip(n / 10);
      assert s[..|s| - 1] == NatToString(n / 10);
    }
  }

  /** `String(n)` for an integer below 10^21 in magnitude: an optional minus
      sign followed by the decimal digits. */
  function IntToString(n: int): (s: string)
    ensures n >= 0 ==> s == NatToString(n)
    ensures n < 0 ==> s == "-" + NatToString(-n)
  {
    if n < 0 then "-" + NatToString(-n) else NatToString(n)
  }
}

=== FILE: js_text.dfy ===
/** The JavaScript string primitives the client relies on: `trim`,
    `toLowerCase` (on A-Z and the Kelvin sign, see `LowerChar`), `includes`,
    `substring`, and the joining and splitting of delimited lists. Strings are `seq<char>` of
    Unicode scalar values. */
module JsText {

  /** The characters `String.prototype.trim` strips (section 22.1.3.32 of
      ECMA-262): WhiteSpace (TAB, VT, FF, ZWNBSP and the Unicode space
      separators) and LineTerminator (LF, CR, LS, PS). */
  predicate IsWhitespace(c: char) {
    || c == '\t' || c == '\n' || c == '\U{000B}' || c == '\U{000C}' || c == '\r'
    || c == ' ' || c == '\U{00A0}' || c == '\U{1680}'
    || ('\U{2000}' <= c <= '\U{200A}')
    || c == '\U{2028}' || c == '\U{2029}' || c == '\U{202F}' || c == '\U{205F}'
    || c == '\U{3000}' || c == '\U{FEFF}'
  }

  /** Empty or made of whitespace only. */
  predicate IsBlank(s: string) {
    forall i :: 0 <= i < |s| ==> IsWhitespace(s[i])
  }

  /** Number of whitespace characters at the start of `s`. */
  function LeadingBlanks(s: string): (n: nat)
    ensures n <= |s|
    ensures forall i :: 0 <= i < n ==> IsWhitespace(s[i])
    ensures n < |s| ==> !IsWhitespace(s[n])
  {
    if |s| > 0 && IsWhitespace(s[0]) then 1 + LeadingBlanks(s[1..]) else 0
  }

  /** Number of whitespace characters at the end of `s`. */
  function TrailingBlanks(s: string): (n: nat)
    ensures n <= |s|
    ensures forall i :: |s| - n <= i < |s| ==> IsWhitespace(s[i])
    ensures n < |s| ==> !IsWhitespace(s[|s| - 1 - n])
  {
    if |s| > 0 && IsWhitespace(s[|s| - 1]) then 1 + TrailingBlanks(s[..|s| - 1]) else 0
  }

  /** `r` is what remains of `s` once the blank prefix `s[..k]` and a blank
      suffix are removed. */
  predicate TrimmedFrom(s: string, r: string, k: int) {
    && 0 <= k && k + |r| <= |s| && r == s[k..k + |r|]
    && (forall i :: 0 <= i < k ==> IsWhitespace(s[i]))
    && (forall i :: k + |r| <= i < |s| ==> IsWhitespace(s[i]))
  }

  /** `s.trim()`: the infix of `s` left once a blank prefix and a blank
      suffix are removed; it neither starts nor ends with whitespace. */
  function Trim(s: string): (r: string)
    ensures r == [] <==> IsBlank(s)
    ensures r != [] ==> !IsWhitespace(r[0]) && !IsWhitespace(r[|r| - 1])
    ensures TrimmedFrom(s, r, LeadingBlanks(s))
  {
    var a := LeadingBlanks(s);
    if a == |s| then ""
    else
      var b := TrailingBlanks(s);
      assert !IsWhitespace(s[a]);
      s[a..|s| - b]
  }

  /** A string that starts and ends with a non-whitespace character is left
      as it is by `trim`. */
  lemma TrimOfTrimmed(s: string)
    requires s != [] ==> !IsWhitespace(s[0]) && !IsWhitespace(s[|s| - 1])
    ensures Trim(s) == s
  {
    assert LeadingBlanks(s) == 0;
    if s != [] {
      assert TrailingBlanks(s) == 0;
    }
  }

  /** `trim` is idempotent: `s.trim().trim() === s.trim()`. */
  lemma TrimIdempotent(s: string)
    ensures Trim(Trim(s)) == Trim(s)
  {
    TrimOfTrimmed(Trim(s));
  }

  /** `toLowerCase` on one character, as far as it can yield an ASCII
      letter: `A`-`Z` become `a`-`z`, and U+212A KELVIN SIGN becomes `k`.
      Every other character is kept. Under the full Unicode mapping the only
      other ASCII letter a non-ASCII character yields is the `i` of U+0130,
      so searching the lower-cased text for a word without `i` gives the
      same answer either way. */
  function LowerChar(c: char): (r: char)
    ensures 'a' <= r <= 'z' ==> ('a' <= c <= 'z') || ('A' <= c <= 'Z') || c == KelvinSign
  {
    if 'A' <= c <= 'Z' then (c as int + 32) as char
    else if c == KelvinSign then 'k'
    else c
  }

  const KelvinSign: char := '\U{212A}'

  function ToLower(s: string): (r: string)
    ensures |r| == |s|
    ensures forall i :: 0 <= i < |s| ==> r[i] == LowerChar(s[i])
  {
    seq(|s|, i requires 0 <= i < |s| => LowerChar(s[i]))
  }

  /** `sub` occurs in `s` starting at index `i`. */
  predicate OccursAt(s: string, sub: string, i: int) {
    0 <= i && i + |sub| <= |s| && s[i..i + |sub|] == sub
  }

  /** `s.includes(sub)`: searches `s` left to right; true exactly when `sub`
      occurs somewhere in `s` (the empty string occurs everywhere). */
  function Includes(s: string, sub: string): (r: bool)
    ensures r <==> exists i :: OccursAt(s, sub, i)
    decreases |s|
  {
    if |s| < |sub| then
      assert forall i :: !OccursAt(s, sub, i);
      false
    else if s[..|sub|] == sub then
      assert OccursAt(s, sub, 0);
      true
    else
      var rest := Includes(s[1..], sub);
      assert forall i :: OccursAt(s[1..], sub, i) <==> OccursAt(s, sub, i + 1) by {
        forall i | OccursAt(s[1..], sub, i) ensures OccursAt(s, sub, i + 1) {
          assert s[1..][i..i + |sub|] == s[i + 1..i + 1 + |sub|];
        }
        forall i | OccursAt(s, sub, i + 1) ensures OccursAt(s[1..], sub, i) {
          assert s[1..][i..i + |sub|] == s[i + 1..i + 1 + |sub|];
        }
      }
      assert rest ==> exists i :: OccursAt(s, sub, i) by {
        if rest {
          var i :| OccursAt(s[1..], sub, i);
          assert OccursAt(s, sub, i + 1);
        }
      }
      assert (exists i :: OccursAt(s, sub, i)) ==> rest by {
        if exists i :: OccursAt(s, sub, i) {
          var i :| OccursAt(s, sub, i);
          assert i != 0;
          assert OccursAt(s[1..], sub, i - 1);
        }
      }
      rest
  }

  /** `s.substring(0, n)` for `n >= 0`: the first `n` characters, or all of
      `s` when it is shorter. */
  function Take(s: string, n: nat): (r: string)
    ensures |r| == if n < |s| then n else |s|
    ensures r == s[..|r|]
  {
    if n < |s| then s[..n] else s
  }

  /** `s.substring(|s| - n)`: the last `n` characters, or all of `s` when it
      is shorter (a negative start is clamped to 0). */
  function TakeLast(s: string, n: nat): (r: string)
    ensures |r| == if n < |s| then n else |s|
    ensures r == s[|s| - |r|..]
  {
    if n < |s| then s[|s| - n..] else s
  }

  /** `parts.join([sep])`. */
  function Join(parts: seq<string>, sep: char): string
  {
    if |parts| == 0 then ""
    else if |parts| == 1 then parts[0]
    else parts[0] + [sep] + Join(parts[1..], sep)
  }

  /** Index of the first `c` in `s`, or `|s|` when there is none. */
  function IndexOf(s: string, c: char): (i: nat)
    ensures i <= |s|
    ensures i < |s| ==> s[i] == c
    ensures forall j :: 0 <= j < i ==> s[j] != c
  {
    if |s| == 0 then 0
    else if s[0] == c then 0
    else 1 + IndexOf(s[1..], c)
  }

  /** `s.split(sep)` for a one-character separator. */
  function Split(s: string, sep: char): (r: seq<string>)
    ensures |r| > 0
    decreases |s|
  {
    var i := IndexOf(s, sep);
    if i == |s| then [s] else [s[..i]] + Split(s[i + 1..], sep)
  }

  lemma {:induction false} IndexOfJoined(a: string, sep: char, b: string)
    requires sep !in a
    ensures IndexOf(a + [sep] + b, sep) == |a|
    decreases |a|
  {
    if |a| > 0 {
      assert (a + [sep] + b)[1..] == a[1..] + [sep] + b;
      IndexOfJoined(a[1..], sep, b);
    }
  }

  /** Splitting a joined list on its separator gives back the list, provided
      no element contains the separator. */
  lemma {:induction false} SplitJoin(parts: seq<string>, sep: char)
    requires |parts| > 0
    requires forall k :: 0 <= k < |parts| ==> sep !in parts[k]
    ensures Split(Join(parts, sep), sep) == parts
    decreases |parts|
  {
    if |parts| == 1 {
      assert IndexOf(parts[0], sep) == |parts[0]|;
    } else {
      var rest := Join(parts[1..], sep);
      var s := parts[0] + [sep] + rest;
      IndexOfJoined(parts[0], sep, rest);
      assert s[..|parts[0]|] == parts[0];
      assert s[|parts[0]| + 1..] == rest;
      SplitJoin(parts[1..], sep);
      assert parts == [parts[0]] + parts[1..];
    }
  }
  /** A joined list contains the separator only between elements: if no
      element contains `c` and `c` is not the separator, neither does the
      joined string. */
  lemma {:induction false} JoinAvoids(parts: seq<string>, sep: char, c: char)
    requires c != sep
    requires forall k :: 0 <= k < |parts| ==> c !in parts[k]
    ensures c !in Join(parts, sep)
    decreases |parts|
  {
    if |parts| > 1 {
      JoinAvoids(parts[1..], sep, c);
    }
  }
}

=== FILE: js_value.dfy ===
/** Values the client receives from the backend and from the WebSocket: the
    result of `JSON.parse`, with JavaScript's truthiness, property access,
    `in` and `JSON.stringify` over them. */
module JsValue {
  import opened JsText
  import opened JsNumber

  /** A value that may be absent: `null`/`undefined` become `None`. */
  datatype Option<T> = None | Some(value: T)

  /** A parsed JSON value. Numbers are integers. An object lists its
      members in JavaScript's property order (section 10.1.11.1 of
      ECMA-262): keys that are array indices first, in ascending order, then
      the others in creation order. `Object.keys`, `Object.entries` and
      `JSON.stringify` all follow that order. A value built by `JSON.parse`
      is taken in that order and with distinct keys; the model does not
      reorder members itself. */
  datatype Json =
    | JNull
    | JBool(b: bool)
    | JNumber(n: int)
    | JString(s: string)
    | JArray(items: seq<Json>)
    | JObject(members: seq<Member>)

  datatype Member = Member(key: string, value: Json)

  /** JavaScript truthiness: `null`, `false`, `0` and `""` are falsy; arrays
      and objects, even empty ones, are truthy. */
  predicate Truthy(j: Json) {
    match j
    case JNull => false
    case JBool(b) => b
    case JNumber(n) => n != 0
    case JString(s) => s != ""
    case _ => true
  }

  /** Truthiness of a property read that may give `undefined`. */
  predicate TruthyField(o: Option<Json>) {
    o.Some? && Truthy(o.value)
  }

  /** The value stored under `key` among `ms`. */
  function Lookup(ms: seq<Member>, key: string): (r: Option<Json>)
    ensures r.Some? <==> exists i :: 0 <= i < |ms| && ms[i].key == key
    ensures r.Some? ==> exists i :: 0 <= i < |ms| && ms[i] == Member(key, r.value)
  {
    if |ms| == 0 then None
    else if ms[0].key == key then Some(ms[0].value)
    else
      var r := Lookup(ms[1..], key);
      assert forall i :: 0 < i < |ms| ==> ms[i] == ms[1..][i - 1];
      r
  }

  /** `j.key` on a value that is not `null`: an object's member, `undefined`
      for every other value (numbers, strings, booleans and arrays have no
      such data property). */
  function Field(j: Json, key: string): Option<Json> {
    if j.JObject? then Lookup(j.members, key) else None
  }

  /** `key in j`, which JavaScript only evaluates for objects and arrays
      (arrays built by `JSON.parse` have no named members). */
  predicate HasKey(j: Json, key: string) {
    j.JObject? && Lookup(j.members, key).Some?
  }

  /** `String(v)` for a primitive value. */
  function PrimitiveToString(j: Json): string
    requires !j.JArray? && !j.JObject?
  {
    match j
    case JNull => "null"
    case JBool(b) => if b then "true" else "false"
    case JNumber(n) => IntToString(n)
    case JString(s) => s
  }

  function HexDigitLower(d: nat): char
    requires d < 16
  {
    if d < 10 then ('0' as int + d) as char else ('a' as int + d - 10) as char
  }

  /** The escape `JSON.stringify` writes for one character of a string
      (QuoteJSONString, section 25.5.2.3 of ECMA-262). */
  function QuoteChar(c: char): string {
    if c == '\U{0008}' then "\\b"
    else if c == '\t' then "\\t"
    else if c == '\n' then "\\n"
    else if c == '\U{000C}' then "\\f"
    else if c == '\r' then "\\r"
    else if c == '"' then "\\\""
    else if c == '\\' then "\\\\"
    else if (c as int) < 0x20 then
      "\\u00" + [HexDigitLower(c as int / 16), HexDigitLower(c as int % 16)]
    else [c]
  }

  function QuoteBody(s: string): string {
    if |s| == 0 then "" else QuoteChar(s[0]) + QuoteBody(s[1..])
  }

  function Quote(s: string): (r: string)
    ensures |r| >= 2 && r[0] == '"' && r[|r| - 1] == '"'
  {
    "\"" + QuoteBody(s) + "\""
  }

  /** `JSON.stringify(j)`: compact, members in the order the value lists
      them, which is JavaScript's property order. */
  function Stringify(j: Json): (r: string)
    ensures r != []
  {
    match j
    case JNull => "null"
    case JBool(b) => if b then "true" else "false"
    case JNumber(n) => IntToString(n)
    case JString(s) => Quote(s)
    case JArray(items) =>
      "[" + Join(seq(|items|, i requires 0 <= i < |items| => Stringify(items[i])), ',') + "]"
    case JObject(ms) =>
      "{" + Join(seq(|ms|, i requires 0 <= i < |ms| =>
        Quote(ms[i].key) + ":" + Stringify(ms[i].value)), ',') + "}"
  }
}

=== FILE: storage.dfy ===
/** The browser's `localStorage` as a value: a map from keys to string
    values. `getItem` of a missing key gives `null`; `setItem` and
    `removeItem` touch one key. */
module Storage {
  import opened JsValue

  type Store = map<string, string>

  /** `localStorage.getItem(key)`. */
  function GetItem(st: Store, key: string): (r: Option<string>)
    ensures r.Some? <==> key in st
    ensures r.Some? ==> r.value == st[key]
  {
    if key in st then Some(st[key]) else None
  }

  /** `a` and `b` hold the same entries outside `keys`. */
  ghost predicate SameExcept(a: Store, b: Store, keys: set<string>) {
    forall k :: k !in keys ==> (k in a <==> k in b) && (k in a ==> a[k] == b[k])
  }
}

=== FILE: unisat_service.dfy ===
/** The wallet side of `services/unisat.ts`: the lock and cooldown that
    guard `ensureWalletAuthenticated`, the sign-in it performs with the
    Unisat extension and the backend, the mapping of the backend's NFT list
    to inscriptions, and the connected-address query. The extension's
    answers, the backend's reply and the clock are inputs. */
module UnisatService {
  import opened JsText
  import opened JsValue
  import opened Storage
  import ApiClient

  const AuthCooldownMs: int := 2000
  const SignPrefix: string := "Sign this message to authenticate with Satonic: "

  /** The module-level `authInProgress` flag and `lastAuthAttempt` time. */
  datatype AuthLock = AuthLock(inProgress: bool, lastAttempt: int)

  const InitialLock: AuthLock := AuthLock(false, 0)

  /** The answer of one extension call: a value, or a thrown error (a
      rejected request, for instance). A `null` account list reads as an
      empty one. */
  datatype WalletCall<T> = Returned(value: T) | Threw

  /** Everything the extension and the backend answer during one sign-in:
      `getAccounts`, `requestAccounts` (asked only when the first list is
      empty), the second `getAccounts`, `signMessage` and the response
      `apiRequest` gives for the login request. Network switching is
      attempted and its failures ignored, so it has no input. */
  datatype WalletEnv = WalletEnv(
    installed: bool,
    accounts: WalletCall<seq<string>>,
    requested: WalletCall<seq<string>>,
    accountsAgain: WalletCall<seq<string>>,
    signature: WalletCall<string>,
    loginReply: ApiClient.ApiResponse)

  // ---------------------------------------------------------------------
  // The lock and the cooldown

  /** What the guard at the top of `ensureWalletAuthenticated` decides:
      answer at once, or go on to sign in. */
  datatype Gate = Answer(result: bool) | Proceed

  /** The three early exits, in the source's order: an authenticated client
      answers true; a sign-in already running, or one started less than two
      seconds ago, answers false. Proceeding takes the lock and stamps the
      attempt. */
  function Begin(lock: AuthLock, st: Store, now: int): (r: (Gate, AuthLock))
    ensures ApiClient.IsAuthenticated(st) ==> r == (Answer(true), lock)
    ensures !ApiClient.IsAuthenticated(st) && lock.inProgress ==> r == (Answer(false), lock)
    ensures !ApiClient.IsAuthenticated(st) && now - lock.lastAttempt < AuthCooldownMs ==>
              r == (Answer(false), lock)
    ensures r.0.Proceed? <==>
              !ApiClient.IsAuthenticated(st) && !lock.inProgress && now - lock.lastAttempt >= AuthCooldownMs
    ensures r.0.Proceed? ==> r.1 == AuthLock(true, now)
  {
    if ApiClient.IsAuthenticated(st) then (Answer(true), lock)
    else if lock.inProgress then (Answer(false), lock)
    else if now - lock.lastAttempt < AuthCooldownMs then (Answer(false), lock)
    else (Proceed, AuthLock(true, now))
  }

  /** The `finally` block: the lock is released, the stamp kept. */
  function Finish(lock: AuthLock): (r: AuthLock)
    ensures !r.inProgress && r.lastAttempt == lock.lastAttempt
  {
    lock.(inProgress := false)
  }

  /** Calls that overlap in time: `Start` runs the guard of a new call,
      `End` runs the `finally` of the call in progress. */
  datatype LockEvent = Start(now: int, st: Store) | End

  function Apply(lock: AuthLock, e: LockEvent): AuthLock {
    match e
    case Start(now, st) => Begin(lock, st, now).1
    case End => Finish(lock)
  }

  function ApplyAll(lock: AuthLock, es: seq<LockEvent>): AuthLock
    decreases |es|
  {
    if |es| == 0 then lock else ApplyAll(Apply(lock, es[0]), es[1..])
  }

  /** Times at which a call got past the guard. */
  function Proceeded(lock: AuthLock, es: seq<LockEvent>): seq<int>
    decreases |es|
  {
    if |es| == 0 then []
    else
      var e := es[0];
      var started := e.Start? && Begin(lock, e.st, e.now).0.Proceed?;
      (if started then [e.now] else []) + Proceeded(Apply(lock, e), es[1..])
  }

  /** The stamp only moves to the time of a call that got past the guard. */
  lemma {:induction false} StampFollowsProceeded(lock: AuthLock, es: seq<LockEvent>)
    ensures |Proceeded(lock, es)| == 0 ==> ApplyAll(lock, es).lastAttempt == lock.lastAttempt
    ensures |Proceeded(lock, es)| > 0 ==>
              ApplyAll(lock, es).lastAttempt == Proceeded(lock, es)[|Proceeded(lock, es)| - 1]
    decreases |es|
  {
    if |es| > 0 {
      StampFollowsProceeded(Apply(lock, es[0]), es[1..]);
    }
  }

  /** However calls interleave, two sign-ins that get past the guard start
      at least two seconds apart, and each starts at least two seconds after
      the stamp it found. */
  lemma {:induction false} ProceededSpacedByCooldown(lock: AuthLock, es: seq<LockEvent>)
    ensures forall k :: 0 <= k < |Proceeded(lock, es)| ==>
              Proceeded(lock, es)[k] >= lock.lastAttempt + AuthCooldownMs
    ensures forall k :: 0 < k < |Proceeded(lock, es)| ==>
              Proceeded(lock, es)[k] >= Proceeded(lock, es)[k - 1] + AuthCooldownMs
    decreases |es|
  {
    if |es| > 0 {
      var e := es[0];
      var next := Apply(lock, e);
      var tail := Proceeded(next, es[1..]);
      ProceededSpacedByCooldown(next, es[1..]);
      var started := e.Start? && Begin(lock, e.st, e.now).0.Proceed?;
      if started {
        assert next.lastAttempt == e.now;
        assert Proceeded(lock, es) == [e.now] + tail;
      } else {
        assert next.lastAttempt == lock.lastAttempt;
        assert Proceeded(lock, es) == tail;
      }
    }
  }

  /** While a sign-in holds the lock, no other unauthenticated call gets
      past the guard, and the lock is not released until `End`. */
  lemma {:induction false} LockExcludesOthers(lock: AuthLock, es: seq<LockEvent>)
    requires lock.inProgress
    requires forall k :: 0 <= k < |es| ==> es[k].Start?
    ensures Proceeded(lock, es) == []
    ensures ApplyAll(lock, es) == lock
    decreases |es|
  {
    if |es| > 0 {
      assert Apply(lock, es[0]) == lock;
      LockExcludesOthers(lock, es[1..]);
    }
  }

  // ---------------------------------------------------------------------
  // One sign-in

  /** What a sign-in did: its answer, the storage it left, the message it
      asked the wallet to sign and the login it performed, if it got that
      far. */
  datatype Attempt = Attempt(
    result: bool,
    store: Store,
    signRequest: Option<string>,
    login: Option<ApiClient.LoginOutcome>)

  function Gave(result: bool, st: Store): Attempt {
    Attempt(result, st, None, None)
  }

  /** The account list the sign-in ends up using, or `None` when it gives
      up before signing. */
  function SigningAccount(env: WalletEnv): (r: Option<string>)
    ensures r.Some? ==> env.installed && env.accountsAgain.Returned? && |env.accountsAgain.value| > 0
                        && r.value == env.accountsAgain.value[0]
  {
    if !env.installed || env.accounts.Threw? then None
    else if |env.accounts.value| == 0 && (env.requested.Threw? || |env.requested.value| == 0) then None
    else if env.accountsAgain.Threw? || |env.accountsAgain.value| == 0 then None
    else Some(env.accountsAgain.value[0])
  }

  /** The message the user is asked to sign. */
  function SignMessageFor(address: string): (m: string)
    ensures |m| == |SignPrefix| + |address|
    ensures m[..|SignPrefix|] == SignPrefix && m[|SignPrefix|..] == address
  {
    SignPrefix + address
  }

  /** `setAuthToken(response.data.token)` after a successful login. Reading
      `token` of `null` throws, which the surrounding `catch` turns into a
      false answer (`None` here). For any other data the member is read: a
      string token is stored; an absent one makes `setAuthToken(undefined)`,
      which stores nothing. */
  function StoreLoginToken(st: Store, data: Json): (r: Option<Store>)
    ensures r.None? <==> data.JNull?
    ensures r.Some? && Field(data, "token").Some? && Field(data, "token").value.JString? ==>
              r.value == ApiClient.SetAuthToken(st, Field(data, "token").value.s)
    ensures r.Some? && !(Field(data, "token").Some? && Field(data, "token").value.JString?) ==>
              r.value == st
  {
    if data.JNull? then None
    else
      var token := Field(data, "token");
      if token.Some? && token.value.JString? then Some(ApiClient.SetAuthToken(st, token.value.s))
      else Some(st)
  }

  /** The body of the `try` in `ensureWalletAuthenticated`, as written:
      checks the extension, gets an account (asking for one when none is
      connected), has the wallet sign the fixed message, logs in, and stores
      the token of a successful login. */
  function SignInAsWritten(st: Store, env: WalletEnv): (r: Attempt)
    ensures r.signRequest.Some? <==> SigningAccount(env).Some?
    ensures r.signRequest.Some? ==> r.signRequest.value == SignMessageFor(SigningAccount(env).value)
    ensures r.login.Some? ==> env.signature.Returned? && r.signRequest.Some?
    ensures r.login.Some? ==>
              r.login.value == ApiClient.WalletLogin(SigningAccount(env).value, env.signature.value,
                                                      r.signRequest.value, env.loginReply)
    ensures r.result ==> r.login.Some? && r.login.value.response.Success?
    ensures r.result ==> Some(r.store) == StoreLoginToken(st, r.login.value.response.data)
    ensures !r.result ==> r.store == st
  {
    var account := SigningAccount(env);
    if account.None? then Gave(false, st)
    else
      var message := SignMessageFor(account.value);
      if env.signature.Threw? then Attempt(false, st, Some(message), None)
      else
        var login := ApiClient.WalletLogin(account.value, env.signature.value, message, env.loginReply);
        if login.response.Failure? then Attempt(false, st, Some(message), Some(login))
        else
          var stored := StoreLoginToken(st, login.response.data);
          if stored.None? then Attempt(false, st, Some(message), Some(login))
          else Attempt(true, stored.value, Some(message), Some(login))
  }

  /** The sign-in as intended: a successful login counts only when a usable
      token has been stored, so that the next request carries it. */
  function SignIn(st: Store, env: WalletEnv): (r: Attempt)
    ensures r.result ==> ApiClient.IsAuthenticated(r.store)
    ensures r.result <==> SignInAsWritten(st, env).result && ApiClient.IsAuthenticated(SignInAsWritten(st, env).store)
    ensures r.store == SignInAsWritten(st, env).store
    ensures r.signRequest == SignInAsWritten(st, env).signRequest && r.login == SignInAsWritten(st, env).login
  {
    var a := SignInAsWritten(st, env);
    a.(result := a.result && ApiClient.IsAuthenticated(a.store))
  }

  /** A sign-in (which runs only for a client that is not authenticated)
      that answers true leaves the client authenticated with the token the
      backend returned, trimmed. */
  lemma SignInStoresToken(st: Store, env: WalletEnv)
    requires !ApiClient.IsAuthenticated(st)
    ensures SignIn(st, env).result ==>
              && ApiClient.IsAuthenticated(SignIn(st, env).store)
              && var data := SignIn(st, env).login.value.response.data;
                 exists t :: Field(data, "token") == Some(JString(t))
                             && ApiClient.GetAuthToken(SignIn(st, env).store) == Some(Trim(t))
  {
    var r := SignInAsWritten(st, env);
    if r.result && ApiClient.IsAuthenticated(r.store) {
      var token := Field(r.login.value.response.data, "token");
      if !(token.Some? && token.value.JString?) {
        assert false;
      }
      var t := token.value.s;
      ApiClient.SetThenGetAuthToken(st, t);
    }
  }

  /** One whole call of `ensureWalletAuthenticated`: its answer, the lock
      it leaves and the sign-in it ran, if any. */
  datatype Call = Call(result: bool, lock: AuthLock, attempt: Option<Attempt>, store: Store)

  /** `ensureWalletAuthenticated` with the sign-in as written. */
  function EnsureWalletAuthenticatedAsWritten(lock: AuthLock, st: Store, now: int, env: WalletEnv): (r: Call)
    ensures Begin(lock, st, now).0.Answer? ==>
              r == Call(Begin(lock, st, now).0.result, lock, None, st)
    ensures Begin(lock, st, now).0.Proceed? ==>
              && r.lock == AuthLock(false, now)
              && r.attempt == Some(SignInAsWritten(st, env))
              && r.result == r.attempt.value.result && r.store == r.attempt.value.store
  {
    var (gate, held) := Begin(lock, st, now);
    if gate.Answer? then Call(gate.result, lock, None, st)
    else
      var a := SignInAsWritten(st, env);
      Call(a.result, Finish(held), Some(a), a.store)
  }

  /** `ensureWalletAuthenticated` (and `connect`, which only calls it) with
      the sign-in as intended. */
  function EnsureWalletAuthenticated(lock: AuthLock, st: Store, now: int, env: WalletEnv): (r: Call)
    ensures Begin(lock, st, now).0.Answer? ==>
              r == Call(Begin(lock, st, now).0.result, lock, None, st)
    ensures Begin(lock, st, now).0.Proceed? ==>
              && r.lock == AuthLock(false, now)
              && r.attempt == Some(SignIn(st, env))
              && r.result == r.attempt.value.result && r.store == r.attempt.value.store
    ensures !r.lock.inProgress || r.lock == lock
  {
    var (gate, held) := Begin(lock, st, now);
    if gate.Answer? then Call(gate.result, lock, None, st)
    else
      var a := SignIn(st, env);
      Call(a.result, Finish(held), Some(a), a.store)
  }

  /** A true answer always means the client is authenticated afterwards,
      whether it already was or has just signed in. */
  lemma TrueMeansAuthenticated(lock: AuthLock, st: Store, now: int, env: WalletEnv)
    ensures EnsureWalletAuthenticated(lock, st, now, env).result ==>
              ApiClient.IsAuthenticated(EnsureWalletAuthenticated(lock, st, now, env).store)
  {
  }

  /** The two versions differ only in the answer, and only when a login
      succeeded without leaving a usable token. */
  lemma AsWrittenDiffersOnlyWithoutToken(lock: AuthLock, st: Store, now: int, env: WalletEnv)
    ensures EnsureWalletAuthenticatedAsWritten(lock, st, now, env).store
            == EnsureWalletAuthenticated(lock, st, now, env).store
    ensures EnsureWalletAuthenticatedAsWritten(lock, st, now, env).lock
            == EnsureWalletAuthenticated(lock, st, now, env).lock
    ensures EnsureWalletAuthenticatedAsWritten(lock, st, now, env).result
            != EnsureWalletAuthenticated(lock, st, now, env).result ==>
              && EnsureWalletAuthenticatedAsWritten(lock, st, now, env).result
              && !ApiClient.IsAuthenticated(EnsureWalletAuthenticatedAsWritten(lock, st, now, env).store)
  {
  }

  /** The backend accepts the signature but sends a token of spaces: the
      login's own check passes (the token is a non-empty string),
      `setAuthToken` stores the empty trimmed string, and the call as
      written answers true although no token will be sent. */
  lemma BlankTokenAnswersTrueAsWritten()
    ensures var env := WalletEnv(true, Returned(["tb1qaddr"]), Threw, Returned(["tb1qaddr"]), Returned("sig"),
                                 ApiClient.Success(JObject([Member("token", JString("   "))])));
            && EnsureWalletAuthenticatedAsWritten(InitialLock, map[], 5000, env).result
            && !ApiClient.IsAuthenticated(EnsureWalletAuthenticatedAsWritten(InitialLock, map[], 5000, env).store)
            && !EnsureWalletAuthenticated(InitialLock, map[], 5000, env).result
  {
    var env := WalletEnv(true, Returned(["tb1qaddr"]), Threw, Returned(["tb1qaddr"]), Returned("sig"),
                         ApiClient.Success(JObject([Member("token", JString("   "))])));
    var msg := SignMessageFor("tb1qaddr");
    var login := ApiClient.WalletLogin("tb1qaddr", "sig", msg, env.loginReply);
    assert login.response == env.loginReply;
    var st' := ApiClient.SetAuthToken(map[], "   ");
    assert IsBlank("   ") by {
      assert forall i :: 0 <= i < 3 ==> "   "[i] == ' ';
    }
    ApiClient.SetThenGetAuthToken(map[], "   ");
    assert !ApiClient.IsAuthenticated(st');
    assert SignInAsWritten(map[], env).store == st';
  }

  // ---------------------------------------------------------------------
  // Inscriptions and the connected address

  /** The fields of an `UnisatInscription` taken from an NFT record; the
      remaining fields are the constants `0` and `""`. A field that the NFT
      lacks is `None` (JavaScript's `undefined`). */
  datatype Inscription = Inscription(
    inscriptionId: Option<Json>,
    address: Option<Json>,
    preview: Option<Json>,
    content: Option<Json>,
    contentType: Json,
    genesisTransaction: Json)

  datatype InscriptionPage = InscriptionPage(total: nat, inscriptions: seq<Inscription>)

  const EmptyPage: InscriptionPage := InscriptionPage(0, [])

  /** `a?.key || fallback`. */
  function FieldOr(o: Option<Json>, key: string, fallback: Json): (r: Json)
    ensures TruthyField(if o.Some? then Field(o.value, key) else None) ==> Some(r) == Field(o.value, key)
    ensures !TruthyField(if o.Some? then Field(o.value, key) else None) ==> r == fallback
  {
    if o.Some? && TruthyField(Field(o.value, key)) then Field(o.value, key).value else fallback
  }

  /** One NFT mapped to an inscription; `nft` is not `null`. */
  function ToInscription(nft: Json): (r: Inscription)
    requires !nft.JNull?
    ensures r.inscriptionId == Field(nft, "id") && r.address == Field(nft, "wallet_id")
    ensures r.preview == Field(nft, "image_url") && r.content == Field(nft, "content_url")
    ensures r.contentType == FieldOr(Field(nft, "metadata"), "content_type", JString("text/plain"))
    ensures r.genesisTransaction == FieldOr(Field(nft, "metadata"), "genesis_tx", JString(""))
  {
    var meta := Field(nft, "metadata");
    Inscription(Field(nft, "id"), Field(nft, "wallet_id"), Field(nft, "image_url"), Field(nft, "content_url"),
                FieldOr(meta, "content_type", JString("text/plain")), FieldOr(meta, "genesis_tx", JString("")))
  }

  /** The NFT list `response.data.nfts`, when `.map` can run over it. */
  function NftList(data: Json): (r: Option<seq<Json>>)
    ensures r.Some? <==> Field(data, "nfts").Some? && Field(data, "nfts").value.JArray?
    ensures r.Some? ==> Field(data, "nfts") == Some(JArray(r.value))
  {
    var nfts := Field(data, "nfts");
    if nfts.Some? && nfts.value.JArray? then Some(nfts.value.items) else None
  }

  /** `getAddressInscriptions(address)` given the response of the NFT
      request, made only for an authenticated client. Anything that throws
      on the way — a failure response, data without an `nfts` array, a
      `null` entry — ends in the empty page. */
  function GetAddressInscriptions(st: Store, reply: ApiClient.ApiResponse): (r: InscriptionPage)
    ensures r.total == |r.inscriptions|
    ensures !ApiClient.IsAuthenticated(st) || reply.Failure? ==> r == EmptyPage
    ensures r.total > 0 ==> reply.Success? && NftList(reply.data).Some?
    ensures ApiClient.IsAuthenticated(st) && reply.Success? && NftList(reply.data).Some?
            && (forall k :: 0 <= k < |NftList(reply.data).value| ==> !NftList(reply.data).value[k].JNull?) ==>
              && |r.inscriptions| == |NftList(reply.data).value|
              && forall k :: 0 <= k < |r.inscriptions| ==>
                   r.inscriptions[k] == ToInscription(NftList(reply.data).value[k])
    ensures reply.Success? && NftList(reply.data).Some?
            && (exists k :: 0 <= k < |NftList(reply.data).value| && NftList(reply.data).value[k].JNull?) ==>
              r == EmptyPage
  {
    if !ApiClient.IsAuthenticated(st) || reply.Failure? then EmptyPage
    else
      var nfts := NftList(reply.data);
      if nfts.None? then EmptyPage
      else if exists k :: 0 <= k < |nfts.value| && nfts.value[k].JNull? then EmptyPage
      else
        var items := nfts.value;
        var ins := seq(|items|, k requires 0 <= k < |items| => ToInscription(items[k]));
        InscriptionPage(|ins|, ins)
  }

  /** `getConnectedAddress()`: the first account, or nothing when the
      extension is missing, has no account, or throws. */
  function GetConnectedAddress(installed: bool, accounts: WalletCall<seq<string>>): (r: Option<string>)
    ensures r.Some? <==> installed && accounts.Returned? && |accounts.value| > 0
    ensures r.Some? ==> r.value == accounts.value[0]
  {
    if installed && accounts.Returned? && |accounts.value| > 0 then Some(accounts.value[0]) else None
  }
}

=== FILE: use_wallet.dfy ===
/** The `useWallet` hook (`hooks/useWallet.ts`): the wallet state a page
    sees, its transitions on an account change and on disconnect, the
    guards of `connectWallet` and `signMessage`, and how the balance and
    inscription fetches write their results back into the state.

    The fetch helpers write `{...state, ...}` with the `state` of the render
    that created them, so a write made in between is undone. The functions
    named `...AsWritten` keep that behaviour; the others apply each write to
    the latest state, as a functional `setState` update would. */
module UseWallet {
  import opened JsValue
  import UnisatService

  datatype WalletType = Unisat | Metamask | Xverse | Phantom

  datatype WalletState = WalletState(
    isConnected: bool,
    address: Option<string>,
    balance: Option<int>,
    walletType: Option<WalletType>,
    inscriptions: seq<UnisatService.Inscription>,
    totalInscriptions: nat)

  /** The state the hook is created with. */
  const Initial: WalletState := WalletState(false, None, None, None, [], 0)

  /** `getAddressBalance` always reports zero confirmed satoshis. */
  const ConfirmedBalance: int := 0

  /** The state written when an account becomes available. */
  function ConnectedTo(address: string): (s: WalletState)
    ensures s.isConnected && s.address == Some(address) && s.walletType == Some(Unisat)
    ensures s.balance == None && s.inscriptions == [] && s.totalInscriptions == 0
  {
    WalletState(true, Some(address), None, Some(Unisat), [], 0)
  }

  // ---------------------------------------------------------------------
  // Writing fetched data back

  /** `fetchBalance` completing: the balance written over `base`. */
  function WithBalance(base: WalletState): (s: WalletState)
    ensures s == base.(balance := Some(ConfirmedBalance))
  {
    base.(balance := Some(ConfirmedBalance))
  }

  /** `fetchInscriptions` completing: the page written over `base`. */
  function WithInscriptions(base: WalletState, page: UnisatService.InscriptionPage): (s: WalletState)
    ensures s.inscriptions == page.inscriptions && s.totalInscriptions == page.total
    ensures s.isConnected == base.isConnected && s.address == base.address
    ensures s.balance == base.balance && s.walletType == base.walletType
  {
    base.(inscriptions := page.inscriptions, totalInscriptions := page.total)
  }

  /** Applied to the latest state, the two writes touch different fields,
      so the order in which the fetches finish does not matter. */
  lemma FetchWritesCommute(s: WalletState, page: UnisatService.InscriptionPage)
    ensures WithInscriptions(WithBalance(s), page) == WithBalance(WithInscriptions(s, page))
  {
  }

  /** Both fetches as written: each spreads the `rendered` state, so the
      one that finishes last decides the result. */
  function FetchBothAsWritten(rendered: WalletState, page: UnisatService.InscriptionPage, balanceFirst: bool): (s: WalletState)
    ensures s.isConnected == rendered.isConnected && s.address == rendered.address
  {
    if balanceFirst then WithInscriptions(rendered, page) else WithBalance(rendered)
  }

  /** Both fetches applied to the latest state `current`. */
  function FetchBoth(current: WalletState, page: UnisatService.InscriptionPage): (s: WalletState)
    ensures s.isConnected == current.isConnected && s.address == current.address
    ensures s.walletType == current.walletType
    ensures s.balance == Some(ConfirmedBalance)
    ensures s.inscriptions == page.inscriptions && s.totalInscriptions == page.total
  {
    WithInscriptions(WithBalance(current), page)
  }

  // ---------------------------------------------------------------------
  // Account changes and disconnect

  /** The `accountsChanged` handler's immediate write: connected to the
      first account with nothing loaded yet, or back to the initial state
      for an empty list. The fetches start only in the first case. */
  function HandleAccountsChanged(accounts: seq<string>): (r: (WalletState, bool))
    ensures |accounts| > 0 ==> r == (ConnectedTo(accounts[0]), true)
    ensures |accounts| == 0 ==> r == (Initial, false)
  {
    if |accounts| > 0 then (ConnectedTo(accounts[0]), true) else (Initial, false)
  }

  /** The whole account change, as written: the handler was created at
      mount, so the fetches spread the initial state over the connected
      one. */
  function AccountsChangedAsWritten(accounts: seq<string>, page: UnisatService.InscriptionPage, balanceFirst: bool): (s: WalletState)
    ensures |accounts| == 0 ==> s == Initial
    ensures !s.isConnected && s.address == None
  {
    var (written, fetching) := HandleAccountsChanged(accounts);
    if fetching then FetchBothAsWritten(Initial, page, balanceFirst) else written
  }

  /** The whole account change, as intended. */
  function AccountsChanged(accounts: seq<string>, page: UnisatService.InscriptionPage): (s: WalletState)
    ensures |accounts| == 0 ==> s == Initial
    ensures |accounts| > 0 ==>
              && s.isConnected && s.address == Some(accounts[0]) && s.walletType == Some(Unisat)
              && s.balance == Some(ConfirmedBalance)
              && s.inscriptions == page.inscriptions && s.totalInscriptions == page.total
  {
    var (written, fetching) := HandleAccountsChanged(accounts);
    if fetching then FetchBoth(written, page) else written
  }

  /** `disconnectWallet`: the initial state, whatever came before. */
  function DisconnectWallet(s: WalletState): (r: WalletState)
    ensures r == Initial
    ensures !r.isConnected && r.address == None && r.balance == None && r.walletType == None
    ensures r.inscriptions == [] && r.totalInscriptions == 0
  {
    Initial
  }

  /** Disconnecting undoes an account change, and an empty account change is
      the same as disconnecting. */
  lemma DisconnectUndoesConnect(accounts: seq<string>, page: UnisatService.InscriptionPage)
    ensures DisconnectWallet(AccountsChanged(accounts, page)) == Initial
    ensures AccountsChanged([], page) == DisconnectWallet(AccountsChanged(accounts, page))
  {
  }

  // ---------------------------------------------------------------------
  // Connecting and signing

  /** Why `connectWallet` threw: one of its own two checks, or an error
      of the extension that it rethrows. */
  datatype ConnectError = OnlyUnisat | NotInstalled | WalletThrew

  const OnlyUnisatMessage: string := "Only Unisat wallet is supported"
  const NotInstalledMessage: string := "Unisat wallet is not installed"

  /** The wallet's answers during `connectWallet`: whether `switchNetwork`
      throws, and what `requestAccounts` gives. */
  datatype ConnectEnv = ConnectEnv(
    installed: bool,
    switchThrows: bool,
    requested: UnisatService.WalletCall<seq<string>>,
    page: UnisatService.InscriptionPage)

  /** A thrown error, or the state when the call returns, and whether the
      wallet was called at all. */
  datatype ConnectResult = Threw(error: ConnectError, walletCalled: bool) | Returned(state: WalletState)

  /** The checks before any wallet call, in the source's order. */
  function ConnectGuard(walletType: Option<WalletType>, installed: bool): (r: Option<ConnectError>)
    ensures walletType != Some(Unisat) ==> r == Some(OnlyUnisat)
    ensures walletType == Some(Unisat) && !installed ==> r == Some(NotInstalled)
    ensures r.None? <==> walletType == Some(Unisat) && installed
  {
    if walletType != Some(Unisat) then Some(OnlyUnisat)
    else if !installed then Some(NotInstalled)
    else None
  }

  /** `connectWallet` as written, called from a render whose state was
      `rendered`. */
  function ConnectWalletAsWritten(rendered: WalletState, walletType: Option<WalletType>, env: ConnectEnv): (r: ConnectResult)
    ensures ConnectGuard(walletType, env.installed).Some? ==>
              r == Threw(ConnectGuard(walletType, env.installed).value, false)
    ensures r.Returned? ==> r.state.isConnected == rendered.isConnected && r.state.address == rendered.address
  {
    var guard := ConnectGuard(walletType, env.installed);
    if guard.Some? then Threw(guard.value, false)
    else if env.switchThrows || env.requested.Threw? then Threw(WalletThrew, true)
    else if |env.requested.value| == 0 then Returned(rendered)
    else
      // the connected state is written, then each fetch overwrites it with
      // `rendered`; they are awaited in turn, so the inscriptions land last
      Returned(WithInscriptions(rendered, env.page))
  }

  /** `connectWallet` as intended: after the call the wallet is connected
      to the first account, with the balance and the inscriptions loaded. */
  function ConnectWallet(rendered: WalletState, walletType: Option<WalletType>, env: ConnectEnv): (r: ConnectResult)
    ensures ConnectGuard(walletType, env.installed).Some? ==>
              r == Threw(ConnectGuard(walletType, env.installed).value, false)
    ensures ConnectGuard(walletType, env.installed).None? && (env.switchThrows || env.requested.Threw?) ==>
              r == Threw(WalletThrew, true)
    ensures r.Returned? && env.requested.Returned? && |env.requested.value| == 0 ==> r.state == rendered
    ensures r.Returned? && env.requested.Returned? && |env.requested.value| > 0 ==>
              && r.state.isConnected && r.state.address == Some(env.requested.value[0])
              && r.state.walletType == Some(Unisat) && r.state.balance == Some(ConfirmedBalance)
              && r.state.inscriptions == env.page.inscriptions
              && r.state.totalInscriptions == env.page.total
  {
    var guard := ConnectGuard(walletType, env.installed);
    if guard.Some? then Threw(guard.value, false)
    else if env.switchThrows || env.requested.Threw? then Threw(WalletThrew, true)
    else if |env.requested.value| == 0 then Returned(rendered)
    else Returned(FetchBoth(ConnectedTo(env.requested.value[0]), env.page))
  }

  /** Connecting from a disconnected page, as written, ends disconnected:
      the inscriptions arrive but the address and the connected flag are
      lost. */
  lemma StaleStateUndoesConnection(page: UnisatService.InscriptionPage)
    ensures var env := ConnectEnv(true, false, UnisatService.Returned(["tb1qaddr"]), page);
            && ConnectWalletAsWritten(Initial, Some(Unisat), env).Returned?
            && !ConnectWalletAsWritten(Initial, Some(Unisat), env).state.isConnected
            && ConnectWalletAsWritten(Initial, Some(Unisat), env).state.address == None
            && ConnectWallet(Initial, Some(Unisat), env).state.isConnected
            && ConnectWallet(Initial, Some(Unisat), env).state.address == Some("tb1qaddr")
  {
  }

  /** The same happens on an account change from the extension. */
  lemma StaleStateUndoesAccountChange(address: string, page: UnisatService.InscriptionPage, balanceFirst: bool)
    ensures !AccountsChangedAsWritten([address], page, balanceFirst).isConnected
    ensures AccountsChanged([address], page).isConnected
    ensures AccountsChanged([address], page).address == Some(address)
  {
  }

  const SignatureType: string := "bip322-simple"
  const NotConnectedMessage: string := "Wallet is not connected"

  /** The call `signMessage` makes to the extension. */
  datatype SignRequest = SignRequest(message: string, kind: string)

  datatype SignResult = NotConnected | SignFailed(request: SignRequest) | Signed(request: SignRequest, signature: string)

  /** `signMessage`: refuses without a connected wallet; otherwise asks the
      extension for a BIP-322 simple signature of the message and passes
      its answer or its error through. */
  function SignMessage(s: WalletState, message: string, answer: UnisatService.WalletCall<string>): (r: SignResult)
    ensures r.NotConnected? <==> !s.isConnected
    ensures !r.NotConnected? ==> r.request == SignRequest(message, SignatureType)
    ensures r.Signed? <==> s.isConnected && answer.Returned?
    ensures r.Signed? ==> r.signature == answer.value
  {
    if !s.isConnected then NotConnected
    else
      var req := SignRequest(message, SignatureType);
      match answer
      case Returned(sig) => Signed(req, sig)
      case Threw => SignFailed(req)
  }

  /** After a disconnect nothing can be signed. */
  lemma NoSigningAfterDisconnect(s: WalletState, message: string, answer: UnisatService.WalletCall<string>)
    ensures SignMessage(DisconnectWallet(s), message, answer) == NotConnected
  {
  }
}

=== FILE: websocket_service.dfy ===
/** The `WebSocketService` of `services/websocket.ts` as a state machine:
    the socket and its ready state, the reconnect counter, the heartbeat,
    the pending reconnect timers and the listeners of the `error` event.
    Each operation returns the next state together with the events it
    emits, the frames it sends, the delay of the reconnect timer it
    schedules and the error it throws. The socket's own behaviour (opening,
    closing, delivering frames) is an input. */
module WebSocketService {
  import opened JsNumber
  import opened JsValue

  const MaxReconnectAttempts: nat := 5
  const BaseReconnectDelayMs: nat := 1000
  const MaxReconnectDelayMs: nat := 30000

  /** Normal closure and going away (section 7.4.1 of RFC 6455): the peer
      closed on purpose, so no reconnect is attempted. */
  const NormalClosure: int := 1000
  const GoingAway: int := 1001

  datatype ReadyState = Connecting | Open | Closing | Closed

  /** The service's fields: the socket and its ready state (`None` when
      `socket` is null), the attempt counter, and whether the heartbeat
      interval is registered. `pendingTimers` counts the reconnect timers
      scheduled and neither fired nor cleared; `timerTracked` says whether
      `reconnectTimeoutId` names one of them. `attemptReconnect` overwrites
      the id without clearing the timer it named, so more than one timer
      can be pending, and `close` can clear only the tracked one.
      `errorListeners` counts the listeners registered for `error` on the
      emitter; the service registers none itself. */
  datatype WsState = WsState(
    socket: Option<ReadyState>,
    reconnectAttempts: nat,
    heartbeat: bool,
    pendingTimers: nat,
    timerTracked: bool,
    errorListeners: nat)

  const Initial: WsState := WsState(None, 0, false, 0, false, 0)

  /** An event emitted to the service's listeners. */
  datatype Event = Event(name: string, payload: Option<Json>)

  /** One operation's effects: the next state, the events emitted, the
      frames sent, the delay of the reconnect timer scheduled, and the
      message of an error thrown out of the operation. */
  datatype Step = Step(state: WsState, emitted: seq<Event>, sent: seq<string>, timerDelay: Option<nat>,
                       thrown: Option<string>)

  /** The counter never passes the limit, and a tracked timer is pending. */
  predicate Valid(s: WsState) {
    && s.reconnectAttempts <= MaxReconnectAttempts
    && (s.timerTracked ==> s.pendingTimers >= 1)
  }

  /** A step with no effect besides the new state. */
  function Quiet(s: WsState): Step {
    Step(s, [], [], None, None)
  }

  /** The delay before reconnect attempt `n`: `min(1000 * 2^n, 30000)`. */
  function ReconnectDelay(n: nat): (d: nat)
    ensures d <= MaxReconnectDelayMs
    ensures d >= BaseReconnectDelayMs
  {
    Min(BaseReconnectDelayMs * Pow2(n), MaxReconnectDelayMs)
  }

  /** Later attempts never wait less. */
  lemma ReconnectDelayMonotone(m: nat, n: nat)
    requires m <= n
    ensures ReconnectDelay(m) <= ReconnectDelay(n)
  {
    Pow2Monotone(m, n);
  }

  /** The delays of attempts 1 to 5: 2, 4, 8 and 16 seconds, then the
      30-second cap. */
  lemma ReconnectDelays()
    ensures ReconnectDelay(1) == 2000 && ReconnectDelay(2) == 4000 && ReconnectDelay(3) == 8000
    ensures ReconnectDelay(4) == 16000 && ReconnectDelay(5) == 30000
  {
    assert Pow2(5) == 32;
  }

  /** `emit('error', {message})`. The `events` package's emitter throws
      `Error('Unhandled error. (' + er.message + ')')` when no listener is
      registered for `error`, and emits nothing. */
  function UnhandledError(message: string): string {
    "Unhandled error. (" + message + ")"
  }

  function ErrorEvent(message: string): Event {
    Event("error", Some(JObject([Member("message", JString(message))])))
  }

  function EmitError(s: WsState, message: string): (r: Step)
    ensures r.state == s && r.sent == [] && r.timerDelay == None
    ensures s.errorListeners > 0 ==> r.emitted == [ErrorEvent(message)] && r.thrown == None
    ensures s.errorListeners == 0 ==> r.emitted == [] && r.thrown == Some(UnhandledError(message))
  {
    if s.errorListeners > 0 then Step(s, [ErrorEvent(message)], [], None, None)
    else Step(s, [], [], None, Some(UnhandledError(message)))
  }

  /** `attemptReconnect`: below the limit, counts the attempt and schedules
      a timer whose id replaces the stored one; at the limit, emits
      `reconnect_failed` and changes nothing. */
  function AttemptReconnect(s: WsState): (r: Step)
    ensures s.reconnectAttempts < MaxReconnectAttempts ==>
              && r.state == s.(reconnectAttempts := s.reconnectAttempts + 1,
                               pendingTimers := s.pendingTimers + 1, timerTracked := true)
              && r.timerDelay == Some(ReconnectDelay(s.reconnectAttempts + 1))
              && r.emitted == []
    ensures s.reconnectAttempts >= MaxReconnectAttempts ==>
              r.state == s && r.timerDelay == None && r.emitted == [Event("reconnect_failed", None)]
    ensures Valid(s) ==> Valid(r.state)
    ensures r.sent == [] && r.thrown == None
  {
    if s.reconnectAttempts < MaxReconnectAttempts then
      var n := s.reconnectAttempts + 1;
      Step(s.(reconnectAttempts := n, pendingTimers := s.pendingTimers + 1, timerTracked := true),
           [], [], Some(ReconnectDelay(n)), None)
    else
      Step(s, [Event("reconnect_failed", None)], [], None, None)
  }

  /** `close()`: detaches and drops the socket, clears the heartbeat and the
      tracked reconnect timer; other pending timers and the counter are
      kept. */
  function Close(s: WsState): (r: WsState)
    ensures r.socket == None && !r.heartbeat && !r.timerTracked
    ensures r.reconnectAttempts == s.reconnectAttempts && r.errorListeners == s.errorListeners
    ensures Valid(s) ==> r.pendingTimers == s.pendingTimers - (if s.timerTracked then 1 else 0)
    ensures Valid(s) ==> Valid(r)
  {
    var pending := if s.timerTracked && s.pendingTimers > 0 then s.pendingTimers - 1 else s.pendingTimers;
    s.(socket := None, heartbeat := false, pendingTimers := pending, timerTracked := false)
  }

  /** `connect()`: closes any existing socket, then creates a new one;
      `created` is false when the `WebSocket` constructor throws, in which
      case a reconnect is attempted. */
  function Connect(s: WsState, created: bool): (r: Step)
    ensures created ==> r.state.socket == Some(Connecting) && r.emitted == [] && r.timerDelay == None
    ensures created && s.socket.Some? ==> !r.state.heartbeat && !r.state.timerTracked
    ensures !created ==> r.state.socket == None
    ensures !created && s.reconnectAttempts < MaxReconnectAttempts ==>
              && r.state.reconnectAttempts == s.reconnectAttempts + 1
              && r.timerDelay == Some(ReconnectDelay(s.reconnectAttempts + 1))
              && r.state.timerTracked
    ensures !created && s.reconnectAttempts >= MaxReconnectAttempts ==>
              r.timerDelay == None && r.emitted == [Event("reconnect_failed", None)]
    ensures r.state.reconnectAttempts >= s.reconnectAttempts
    ensures Valid(s) ==> Valid(r.state)
    ensures r.sent == [] && r.thrown == None
  {
    var s1 := if s.socket.Some? then Close(s) else s;
    if created then Quiet(s1.(socket := Some(Connecting)))
    else AttemptReconnect(s1)
  }

  /** `handleOpen`: announces the connection, resets the counter and
      registers the heartbeat. */
  function HandleOpen(s: WsState): (r: Step)
    ensures r.state.reconnectAttempts == 0
    ensures r.state.heartbeat && r.state.socket == Some(Open)
    ensures r.emitted == [Event("connected", None)]
    ensures r.state.pendingTimers == s.pendingTimers && r.state.timerTracked == s.timerTracked
  {
    Step(s.(socket := Some(Open), reconnectAttempts := 0, heartbeat := true), [Event("connected", None)], [], None, None)
  }

  /** The close event's payload `{code, reason}`. */
  function CloseEventJson(code: int, reason: string): Json {
    JObject([Member("code", JNumber(code)), Member("reason", JString(reason))])
  }

  /** `handleClose`: announces the disconnection, attempts a reconnect
      unless the close code is 1000 or 1001, and always clears the
      heartbeat. The socket object is kept, in the closed state. */
  function HandleClose(s: WsState, code: int, reason: string): (r: Step)
    ensures !r.state.heartbeat
    ensures |r.emitted| >= 1 && r.emitted[0] == Event("disconnected", Some(CloseEventJson(code, reason)))
    ensures (code == NormalClosure || code == GoingAway) ==>
              r.state.reconnectAttempts == s.reconnectAttempts && r.timerDelay == None && |r.emitted| == 1
    ensures code != NormalClosure && code != GoingAway ==>
              r.state.reconnectAttempts == (if s.reconnectAttempts < MaxReconnectAttempts
                                            then s.reconnectAttempts + 1 else s.reconnectAttempts)
    ensures code != NormalClosure && code != GoingAway && s.reconnectAttempts < MaxReconnectAttempts ==>
              r.timerDelay == Some(ReconnectDelay(s.reconnectAttempts + 1))
    ensures Valid(s) ==> Valid(r.state)
    ensures r.thrown == None
  {
    var closed := s.(socket := if s.socket.Some? then Some(Closed) else None);
    var disconnected := Event("disconnected", Some(CloseEventJson(code, reason)));
    if code != NormalClosure && code != GoingAway then
      var rc := AttemptReconnect(closed);
      Step(rc.state.(heartbeat := false), [disconnected] + rc.emitted, [], rc.timerDelay, None)
    else
      Step(closed.(heartbeat := false), [disconnected], [], None, None)
  }

  const ConnectionErrorMessage: string := "WebSocket connection error"

  /** `handleError`: reports the socket's error to the `error` listeners;
      without any, the emitter throws out of the socket's callback. */
  function HandleError(s: WsState): (r: Step)
    ensures r.state == s && r.sent == [] && r.timerDelay == None
    ensures s.errorListeners > 0 <==> r.emitted == [ErrorEvent(ConnectionErrorMessage)]
    ensures s.errorListeners == 0 <==> r.thrown == Some(UnhandledError(ConnectionErrorMessage))
  {
    EmitError(s, ConnectionErrorMessage)
  }

  /** The message types that are re-emitted under their own name. */
  predicate IsForwardedType(t: string) {
    t == "welcome" || t == "auction_update" || t == "bid_placed" || t == "error"
  }

  /** `handleMessage`: `raw` is the result of `JSON.parse(event.data)`, or
      `None` when that throws. A known `type` re-emits the payload under the
      same name; anything else, including `null`, emits nothing. Re-emitting
      `error` with no listener throws inside the handler's `try`, and the
      `catch` swallows it, so nothing is emitted then either. */
  function HandleMessage(s: WsState, raw: Option<Json>): (r: Step)
    ensures r.state == s && r.sent == [] && r.timerDelay == None && r.thrown == None
    ensures |r.emitted| <= 1
    ensures |r.emitted| == 1 <==>
              && raw.Some? && raw.value.JObject?
              && exists t :: Field(raw.value, "type") == Some(JString(t)) && IsForwardedType(t)
                             && (t == "error" ==> s.errorListeners > 0)
    ensures |r.emitted| == 1 ==>
              && Field(raw.value, "type") == Some(JString(r.emitted[0].name))
              && r.emitted[0].payload == Field(raw.value, "payload")
  {
    if raw.None? || raw.value.JNull? then Quiet(s)
    else
      var t := Field(raw.value, "type");
      if t.Some? && t.value.JString? && IsForwardedType(t.value.s)
         && (t.value.s == "error" ==> s.errorListeners > 0) then
        Step(s, [Event(t.value.s, Field(raw.value, "payload"))], [], None, None)
      else Quiet(s)
  }

  /** The JSON text of an outgoing `{type, payload}` frame. */
  function Frame(kind: string, payload: Json): string {
    Stringify(JObject([Member("type", JString(kind)), Member("payload", payload)]))
  }

  predicate IsOpen(s: WsState) {
    s.socket == Some(Open)
  }

  /** `subscribe`: sends a frame on an open socket, otherwise connects. */
  function Subscribe(s: WsState, auctionId: string, created: bool): (r: Step)
    ensures IsOpen(s) ==> r == Step(s, [], [Frame("subscribe", JString(auctionId))], None, None)
    ensures !IsOpen(s) ==> r == Connect(s, created)
  {
    if IsOpen(s) then Step(s, [], [Frame("subscribe", JString(auctionId))], None, None)
    else Connect(s, created)
  }

  /** `unsubscribe`: sends a frame on an open socket, otherwise does
      nothing. */
  function Unsubscribe(s: WsState, auctionId: string): (r: Step)
    ensures r.state == s && r.emitted == [] && r.timerDelay == None && r.thrown == None
    ensures r.sent != [] <==> IsOpen(s)
  {
    if IsOpen(s) then Step(s, [], [Frame("unsubscribe", JString(auctionId))], None, None)
    else Quiet(s)
  }

  datatype BidMessage = BidMessage(auctionId: string, walletId: string, amount: int)

  function BidJson(b: BidMessage): Json {
    JObject([Member("auction_id", JString(b.auctionId)), Member("wallet_id", JString(b.walletId)),
             Member("amount", JNumber(b.amount))])
  }

  const NotConnectedBidMessage: string := "WebSocket not connected. Cannot place bid."

  /** `placeBid`: sends a frame on an open socket; otherwise sends nothing
      and emits an error, which throws to the caller when nobody listens
      for `error`. */
  function PlaceBid(s: WsState, bid: BidMessage): (r: Step)
    ensures r.state == s && r.timerDelay == None
    ensures IsOpen(s) ==> r.sent == [Frame("bid", BidJson(bid))] && r.emitted == [] && r.thrown == None
    ensures !IsOpen(s) ==> r.sent == []
    ensures !IsOpen(s) && s.errorListeners > 0 ==>
              r.emitted == [ErrorEvent(NotConnectedBidMessage)] && r.thrown == None
    ensures !IsOpen(s) && s.errorListeners == 0 ==>
              r.emitted == [] && r.thrown == Some(UnhandledError(NotConnectedBidMessage))
  {
    if IsOpen(s) then Step(s, [], [Frame("bid", BidJson(bid))], None, None)
    else EmitError(s, NotConnectedBidMessage)
  }

  /** Everything that can happen to the service: calls of its public
      methods, listeners added to or removed from its `error` event, the
      socket's events, and a reconnect timer firing. The socket's events
      are delivered only while that socket is attached. A timer fires only
      while pending: `latest` says it is the tracked one, otherwise it is
      one whose id was overwritten. */
  datatype Input =
    | CallConnect(created: bool)
    | CallClose
    | CallSubscribe(auctionId: string, created: bool)
    | CallUnsubscribe(auctionId: string)
    | CallPlaceBid(bid: BidMessage)
    | OnError
    | OffError
    | SocketOpened
    | SocketClosed(code: int, reason: string)
    | SocketError
    | SocketMessage(raw: Option<Json>)
    | TimerFired(latest: bool, created: bool)

  /** The timers a `TimerFired` can stand for: the tracked one, or one of
      the others still pending. */
  predicate CanFire(s: WsState, latest: bool) {
    if latest then s.timerTracked && s.pendingTimers >= 1
    else s.pendingTimers > (if s.timerTracked then 1 else 0)
  }

  function Next(s: WsState, i: Input): (r: Step)
    ensures Valid(s) ==> Valid(r.state)
    ensures !i.SocketOpened? ==> r.state.reconnectAttempts >= s.reconnectAttempts
    ensures r.thrown.Some? ==> (i.CallPlaceBid? || i.SocketError?) && s.errorListeners == 0
  {
    match i
    case CallConnect(created) => Connect(s, created)
    case CallClose => Quiet(Close(s))
    case CallSubscribe(id, created) => Subscribe(s, id, created)
    case CallUnsubscribe(id) => Unsubscribe(s, id)
    case CallPlaceBid(bid) => PlaceBid(s, bid)
    case OnError => Quiet(s.(errorListeners := s.errorListeners + 1))
    case OffError =>
      Quiet(s.(errorListeners := if s.errorListeners > 0 then s.errorListeners - 1 else 0))
    case SocketOpened =>
      if s.socket == Some(Connecting) then HandleOpen(s) else Quiet(s)
    case SocketClosed(code, reason) =>
      if s.socket.Some? && s.socket != Some(Closed) then HandleClose(s, code, reason)
      else Quiet(s)
    case SocketError => if s.socket.Some? then HandleError(s) else Quiet(s)
    case SocketMessage(raw) =>
      if s.socket == Some(Open) then HandleMessage(s, raw) else Quiet(s)
    case TimerFired(latest, created) =>
      if !CanFire(s, latest) then Quiet(s)
      else if latest then Connect(s.(pendingTimers := s.pendingTimers - 1, timerTracked := false), created)
      else Connect(s.(pendingTimers := s.pendingTimers - 1), created)
  }

  /** The state after a sequence of inputs. Without a successful open the
      counter never goes down. */
  function Run(s: WsState, inputs: seq<Input>): (r: WsState)
    ensures (forall k :: 0 <= k < |inputs| ==> !inputs[k].SocketOpened?) ==>
              r.reconnectAttempts >= s.reconnectAttempts
    decreases |inputs|
  {
    if |inputs| == 0 then s
    else
      var r := Run(Next(s, inputs[0]).state, inputs[1..]);
      assert forall k :: 0 <= k < |inputs| - 1 ==> inputs[1..][k] == inputs[k + 1];
      r
  }

  /** Number of reconnect timers scheduled along a sequence of inputs. */
  function TimersScheduled(s: WsState, inputs: seq<Input>): nat
    decreases |inputs|
  {
    if |inputs| == 0 then 0
    else
      var step := Next(s, inputs[0]);
      (if step.timerDelay.Some? then 1 else 0) + TimersScheduled(step.state, inputs[1..])
  }

  /** The counter stays within the limit, and the tracked timer is pending,
      whatever happens. */
  lemma {:induction false} RunKeepsValid(s: WsState, inputs: seq<Input>)
    requires Valid(s)
    ensures Valid(Run(s, inputs))
    decreases |inputs|
  {
    if |inputs| > 0 {
      RunKeepsValid(Next(s, inputs[0]).state, inputs[1..]);
    }
  }

  /** Every scheduled timer counts one attempt, so between two successful
      opens at most `5 - attempts` reconnects are scheduled: the backoff
      cannot run forever against a server that never accepts. */
  lemma {:induction false} TimersBoundedWithoutOpen(s: WsState, inputs: seq<Input>)
    requires Valid(s)
    requires forall k :: 0 <= k < |inputs| ==> !inputs[k].SocketOpened?
    ensures TimersScheduled(s, inputs) <= MaxReconnectAttempts - s.reconnectAttempts
    ensures TimersScheduled(s, inputs) <= Run(s, inputs).reconnectAttempts - s.reconnectAttempts
    decreases |inputs|
  {
    if |inputs| > 0 {
      var step := Next(s, inputs[0]);
      assert step.timerDelay.Some? ==> step.state.reconnectAttempts == s.reconnectAttempts + 1 by {
        TimerCountsAttempt(s, inputs[0]);
      }
      TimersBoundedWithoutOpen(step.state, inputs[1..]);
    }
  }

  /** A step that schedules a timer has just counted one more attempt. */
  lemma TimerCountsAttempt(s: WsState, i: Input)
    ensures Next(s, i).timerDelay.Some? ==> Next(s, i).state.reconnectAttempts == s.reconnectAttempts + 1
  {
  }

  /** Two timers can be pending at once: when the constructor throws twice
      with no socket attached, the second `attemptReconnect` overwrites the
      first timer's id without clearing it. */
  lemma TwoTimersPending()
    ensures var s1 := Next(Initial, CallConnect(false)).state;
            var s2 := Next(s1, CallConnect(false)).state;
            && s2.pendingTimers == 2 && s2.timerTracked
            && CanFire(s2, false) && CanFire(s2, true)
            && Close(s2).pendingTimers == 1
  {
  }

  /** As created, the service has no `error` listener, so a bid placed
      before the socket is open throws to the caller. */
  lemma BidBeforeOpenThrows(bid: BidMessage)
    ensures Next(Initial, CallPlaceBid(bid)).thrown == Some(UnhandledError(NotConnectedBidMessage))
    ensures Next(Initial, CallPlaceBid(bid)).emitted == []
  {
  }
}
